=== FILE: README.md ===
# DevConnector core in Dafny

A model of the server-side core of DevConnector, a small developer social
network, plus three of its client-side stores.

- **Profiles** (`routes/api/profile.js`). This covers reading your own profile,
  creating or updating it from a form, and adding and removing experience and
  education entries. It also covers deleting the whole account.
- **Posts** (`routes/api/posts.js`). Creating and deleting posts, liking and
  unliking, and adding and removing comments.
- **Registration** (`routes/api/users.js`).
- **Client reducers**: alerts, the viewed profile, and authentication. The
  authentication model includes the token kept in local storage.

The database is three maps keyed by id: users, profiles and posts (`Store.Db`).
Each request handler is a pure function of the store, the caller's id and the
request body. Registration works on the user map alone. Handlers that change
the store answer `Result<Db>`, with these exceptions:

- `Users.Register` answers `Result<Registered>`, the new user map and the token.
- `ProfileService.OwnProfile` answers `Result<ProfileView>`.
- `ProfileService.DeleteAccount` cannot fail and returns the new `Db`.

`Results.Error` lists one constructor per error response.

Two JavaScript array idioms are modelled with their exact semantics:

- `indexOf`, which answers -1 when the value is absent;
- `splice(start, 1)`, which reads a negative start as an offset from the end.

The handlers remove list elements by combining them (`JsArray`). The skills
field goes through `split(',')` and `trim()` (`Csv`). `Csv.IsWhitespace` is
the exact ECMAScript set of characters that `trim` strips.

**Guards.** Many guards in the routes send a 4xx response but do not
`return`, so the handler carries on and saves the change anyway. The code
comments state that the change is not meant to happen. Every such guard is
modelled as ending the request with an `Err`, leaving the store unchanged.
`PostService.LikeAsWritten`, `PostService.DeletePostAsWritten`,
`PostService.UnlikeAsWritten` and `PostService.RemoveCommentAsWritten` model
four of these fall-throughs as written (see Findings).

A handler that reads a field of a document that is not there (no profile, no
post, no user) throws, and its catch block answers 500. This is modelled as
`ServerError`.

**Two consequences of the code as written:**

- Adding an experience or education entry when the caller has no profile
  dereferences a missing document, so the answer is a 500 (`ServerError`).
- Removing an entry whose id is not on the list changes the list. `indexOf`
  gives -1, and `splice(-1, 1)` removes the list's last entry (see Findings).

## Model

| member | source | states |
|---|---|---|
| Store.Project | routes/api/posts.js:147-148 | The `.map(...)` projection: one key per element, at the same position, so an index into the keys is an index into the list. |
| JsArray.IndexOf | routes/api/profile.js:253-255 | The first position holding the value, with no earlier occurrence. The answer is -1 exactly when the value is absent. |
| JsArray.Splice1 | routes/api/profile.js:257 | `splice(start, 1)` removes at most one element: the one at the position the JS start rule picks (a negative start counts from the end, clamped at 0), with the others kept in order. A start at or past the end removes nothing, and an empty array stays empty. |
| JsArray.SpliceAt | routes/api/posts.js:151 | A start inside the array removes exactly that element. The result plus the removed element is the original multiset. |
| JsArray.SpliceMinusOne | routes/api/profile.js:257 | `splice(-1, 1)` removes the last element of a non-empty array and leaves an empty one alone. |
| JsArray.RemoveKeyed | routes/api/profile.js:253-257 | The indexOf-then-splice idiom. A present key shortens the list by one. An absent key drops the last element. |
| JsArray.RemoveKeyedPresent | routes/api/posts.js:147-151 | With the key present, the element removed is the first one carrying the key. The elements around it keep their order. |
| JsArray.RemoveKeyedCases | routes/api/profile.js:253-257 | The first element carrying the key is removed. With no such element the last one goes, and an empty list stays empty. |
| Csv.Split | routes/api/profile.js:86 | `split(',')` gives one more piece than there are commas, and no piece contains a comma. |
| Csv.JoinSplit | routes/api/profile.js:86 | Joining the pieces of a split with commas gives back the original string. |
| Csv.SplitJoin | routes/api/profile.js:86 | Splitting a comma-join of comma-free pieces gives back those pieces. |
| Csv.Trim | routes/api/profile.js:86 | `trim()` is the whitespace-free middle of the string. It is empty exactly when the string is all whitespace, and neither end of it is whitespace. |
| Csv.TrimTwice | routes/api/profile.js:86 | Trimming is idempotent. |
| Csv.TrimUntouched | routes/api/profile.js:86 | A string without whitespace at either end is unchanged by trimming. |
| Csv.TrimPadded | routes/api/profile.js:86 | Trimming removes one space added on each side of a word. |
| Csv.TrimKeepsCommaFree | routes/api/profile.js:86 | Trimming never introduces a comma. |
| Csv.ParseSkills | routes/api/profile.js:85-87 | The parse has one skill per comma plus one, in order. The k-th skill is the trimmed k-th piece, so pieces that are empty after trimming are kept. |
| Csv.ParseSkillsJoin | routes/api/profile.js:85-87 | Parsing the comma-join of trimmed, comma-free skills gives back those skills. |
| Csv.SplitExample | routes/api/profile.js:86 | `"a, b ,c"` splits into `"a"`, `" b "` and `"c"`. |
| Csv.TrimExampleB | routes/api/profile.js:86 | `" b "` trims to `"b"`. |
| Csv.ParseSkillsExample | routes/api/profile.js:85-87 | `"a, b ,c"` parses to `["a", "b", "c"]`. |
| Users.RegisterChecks | routes/api/users.js:24-29 | `name` fails exactly when empty. `email` fails exactly when it is not an address. `password` fails exactly when shorter than 6. |
| Users.Register | routes/api/users.js:34-83 | Invalid input is rejected with the failed fields, before any lookup. A known address gets `UserExists`. Both leave the directory as it was. Otherwise exactly one user is added with the given name and email, the salted hash of the password and the gravatar of the address. The token names the new id, and email uniqueness is preserved. |
| Users.RegisterTwiceRefused | routes/api/users.js:44-51 | A second registration with an address just registered is refused. |
| ProfileService.OwnProfile | routes/api/profile.js:18-35 | `GET /me` answers the caller's profile with the owner's name and avatar, and `NoProfile` exactly when the caller has none. |
| ProfileService.SocialOf | routes/api/profile.js:90-95 | Each link is the submitted value when that is non-empty and absent otherwise. The rebuilt `social` object has no links exactly when no link was submitted. |
| ProfileService.ProfileChecks | routes/api/profile.js:45-46 | `status` fails exactly when empty, and `skills` fails exactly when empty. |
| ProfileService.Upsert | routes/api/profile.js:40-127 | Empty `status` or `skills` is rejected with the failed fields, storing nothing. Otherwise the caller has exactly one profile, bound to the caller. Its status, parsed skills and social links are the submitted ones. No other profile, user or post changes. One profile per user is preserved. |
| ProfileService.UpsertUpdatesInPlace | routes/api/profile.js:76-81 | An existing profile is updated in place. Each optional field is the submitted value when non-empty, and keeps the stored value otherwise. Experience and education are untouched. |
| ProfileService.UpsertCreatesOne | routes/api/profile.js:115-121 | Without a profile, exactly one is created, owned by the caller. Company, website, location, bio and GitHub user name are each the submitted value when non-empty and absent otherwise. Its entry lists start empty. |
| ProfileService.UpsertIdempotent | routes/api/profile.js:98-113 | Submitting the same form a second time changes nothing. |
| ProfileService.UpsertClearsSocial | routes/api/profile.js:90 | A submission without links clears every stored link. |
| ProfileService.DeleteAccount | routes/api/profile.js:170-184 | The caller's posts, profile and account are removed. Every other user, profile and post stays as it was. The store invariant is preserved. |
| ProfileService.DeletedAccountHasNoProfile | routes/api/profile.js:176 | After deleting the account, `GET /me` finds no profile. |
| ProfileService.ExperienceChecks | routes/api/profile.js:194-196 | The experience form passes exactly when title, company and start date are non-empty. |
| ProfileService.EducationChecks | routes/api/profile.js:274-277 | The education form passes exactly when school, degree, field of study and start date are non-empty. |
| ProfileService.AddExperience | routes/api/profile.js:189-240 | The answer is Ok exactly when the form is valid and the caller has a profile. An invalid form is rejected, and no profile gives a 500. Otherwise the new entry is put in front of the old experience list and the education list is kept. Nothing else in the store changes, and the invariant is preserved. |
| ProfileService.AddEducation | routes/api/profile.js:269-316 | The same as AddExperience, for the education list: Ok exactly for a valid form and an existing profile, and the experience list is kept. |
| ProfileService.AddExperienceTwice | routes/api/profile.js:232 | Two additions leave the newest first, then the older one, then the old list. |
| ProfileService.RemoveExperience | routes/api/profile.js:245-264 | The answer is Ok exactly when the caller has a profile; no profile gives a 500. Otherwise only the caller's experience list can change, the education list is kept, and the invariant is preserved. |
| ProfileService.RemoveEducation | routes/api/profile.js:321-334 | The same as RemoveExperience, for the education list: Ok exactly with a profile, and the experience list is kept. |
| ProfileService.RemoveExperienceEffect | routes/api/profile.js:253-257 | An id first found at position i removes position i. An absent id drops the last entry, and an empty list stays empty. |
| ProfileService.RemoveEducationEffect | routes/api/profile.js:324-327 | The same as RemoveExperienceEffect, for education. |
| ProfileService.RemoveExperienceById | routes/api/profile.js:245-264 | The corrected removal, Ok exactly when the caller has a profile. An absent id leaves the list unchanged. A present id removes exactly its first entry, and the entries before and after it keep their order. The education list is kept and the invariant is preserved. |
| ProfileService.RemoveExperienceByIdRemovesIt | routes/api/profile.js:253-257 | With unique entry ids, no entry with the id is left. |
| ProfileService.RemoveExperienceAbsentIdDropsEntry | routes/api/profile.js:253-257 | A one-entry list loses its entry under an id it does not hold, while the corrected removal keeps it. |
| ProfileService.RemoveEducationById | routes/api/profile.js:321-334 | The corrected removal for education, Ok exactly when the caller has a profile. An absent id leaves the list unchanged. A present id removes exactly its first entry, and the others keep their order. The experience list is kept and the invariant is preserved. |
| ProfileService.RemoveEducationByIdRemovesIt | routes/api/profile.js:324-327 | With unique entry ids, no education entry with the id is left. |
| ProfileService.RemoveEducationAbsentIdDropsEntry | routes/api/profile.js:324-327 | A one-entry education list loses its entry under an id it does not hold, while the corrected removal keeps it. |
| PostService.CreatePost | routes/api/posts.js:13-42 | The answer is Ok exactly when the text is non-empty and the caller's account exists. Empty text is rejected, and a missing account gives a 500. Otherwise exactly one post is added, by the caller. It carries the caller's current name and avatar and has no likes or comments. Other posts are unchanged and the invariant is preserved. |
| PostService.DeletePost | routes/api/posts.js:80-102 | The answer is Ok exactly when the post exists and the caller wrote it. A missing post gives `PostNotFound`, and a non-author gets `NotAuthorized`. The author removes exactly that post, and everything else stays. |
| PostService.DeletePostAsWritten | routes/api/posts.js:85-93 | As written, an existing post is removed whoever asks. Users, profiles and every other post stay as they were. |
| PostService.DeletePostAsWrittenIgnoresAuthor | routes/api/posts.js:90-93 | A non-author's request removes the post as written, but is refused by `DeletePost`. |
| PostService.Like | routes/api/posts.js:113-120 | The answer is Ok exactly when the caller has not liked the post yet; a repeated like is refused. Otherwise the caller's like goes in front and nothing else changes. One like per user is preserved. |
| PostService.LikeAsWritten | routes/api/posts.js:113-120 | As written, a like is always put in front of the old likes, which follow it unchanged; the rest of the post is kept. |
| PostService.LikeAsWrittenDuplicates | routes/api/posts.js:113-120 | Liking twice as written records the same user twice, while `Like` refuses the second like. |
| PostService.Unlike | routes/api/posts.js:140-151 | The answer is Ok exactly when the caller has liked the post; otherwise it is refused. On success one like is removed, by the indexOf/splice idiom, and nothing else in the post changes. |
| PostService.UnlikeAsWritten | routes/api/posts.js:140-151 | As written, the indexOf/splice removal runs whether or not the caller has liked. It agrees with `Unlike` when the caller has. Otherwise the last like is dropped, and an empty list stays empty. Only the likes change. |
| PostService.UnlikeAsWrittenDropsOthersLike | routes/api/posts.js:140-151 | A post whose one like is another user's loses it to the caller's unlike as written; `Unlike` refuses with `NotYetLiked`. |
| PostService.UnlikeEffect | routes/api/posts.js:147-151 | The like removed is the caller's first, and the others keep their order. With one like per user, the caller has no like left. |
| PostService.LikeThenUnlike | routes/api/posts.js:107-158 | Like followed by unlike gives back the original post. |
| PostService.LikePost | routes/api/posts.js:107-129 | The like applied to the stored post. A missing post gives a 500, and the store invariant is preserved. |
| PostService.UnlikePost | routes/api/posts.js:134-158 | The unlike applied to the stored post. A missing post gives a 500, and the store invariant is preserved. |
| PostService.AddComment | routes/api/posts.js:163-195 | The answer is Ok exactly when the text is non-empty and both the caller's account and the post exist. Empty text is rejected, and a missing account or post gives a 500. Otherwise the caller's comment, with their current name and avatar, goes in front. Nothing else changes. |
| PostService.RemoveComment | routes/api/posts.js:200-228 | An unknown comment id gives `CommentNotFound`. `NotAuthorized` comes exactly when the comment exists and someone else wrote it. The answer is Ok exactly when the caller owns the comment. Then one comment is removed, found by the caller's user id. |
| PostService.RemoveCommentAsWritten | routes/api/posts.js:200-228 | As written, only a missing comment stops the removal (`CommentNotFound`); another user's comment does not. The comment removed is found by author: the caller's first comment goes, or the post's last comment when the caller has none. The result agrees with `RemoveComment` when the caller owns the named comment, and only the comments change. |
| PostService.RemoveCommentAsWrittenTakesOwn | routes/api/posts.js:213-221 | Asking to remove another user's comment, as written, removes the caller's own comment instead and leaves the named one. |
| PostService.RemoveCommentAsWrittenIgnoresAuthor | routes/api/posts.js:213-221 | A user removes another user's only comment under the route as written; `RemoveComment` answers `NotAuthorized`. |
| PostService.RemoveCommentEffect | routes/api/posts.js:217-221 | The comment removed is the caller's first-listed one, at or before the named comment. The two coincide exactly when the caller wrote nothing earlier in the list. |
| PostService.RemoveCommentKeepsOthers | routes/api/posts.js:217-221 | The comments of every other user stay, in order. |
| PostService.RemoveCommentWrongTarget | routes/api/posts.js:217-221 | The caller's comments [newer, older]: asking to remove the older one removes the newer one. |
| PostService.RemoveCommentById | routes/api/posts.js:205-221 | The corrected removal has the same checks: `NotAuthorized` exactly for an existing comment by someone else, and Ok exactly for the caller's own comment. It takes out exactly the named comment. |
| PostService.RemoveCommentByIdRemovesTarget | routes/api/posts.js:205-221 | With unique comment ids, no comment with the named id is left. Every comment with another id stays, in order. |
| PostService.RemoveCommentFrom | routes/api/posts.js:200-228 | The removal applied to the stored post. A missing post gives a 500, and the store invariant is preserved. |
| AlertReducer.Without | client/src/reducers/alert.js:17 | The filter keeps exactly the alerts whose id differs. |
| AlertReducer.Reduce | client/src/reducers/alert.js:11-21 | `SET_ALERT` appends, keeping the old list as a prefix. `REMOVE_ALERT` keeps exactly the other ids. Any other action changes nothing. |
| AlertReducer.WithoutAppend | client/src/reducers/alert.js:17 | Removal keeps relative order: it distributes over concatenation. |
| AlertReducer.WithoutAbsent | client/src/reducers/alert.js:17 | Removing an id no alert has is the identity. |
| AlertReducer.RemoveIdempotent | client/src/reducers/alert.js:17 | Removing twice is removing once. |
| AlertReducer.SetThenRemove | client/src/reducers/alert.js:14-17 | Setting an alert with a fresh id and then removing it restores the list. |
| AlertReducer.RemoveCommutes | client/src/reducers/alert.js:17 | Removals by two ids commute. |
| ProfileReducer.Reduce | client/src/reducers/profile.js:26-63 | `GET_PROFILE` and `UPDATE_PROFILE` store the payload as the profile. `GET_PROFILES` stores the payload list, and `GET_REPOS` stores the payload repositories. `CLEAR_PROFILE` empties the profile and the repositories. `PROFILE_ERROR` records the error and drops the profile. Unknown actions are the identity, and every handled action clears `loading`. No other action changes the list, the repositories or the error. |
| ProfileReducer.GetAndUpdateAgree | client/src/reducers/profile.js:28-34 | `GET_PROFILE` and `UPDATE_PROFILE` give the same state, showing the payload. |
| ProfileReducer.ClearProfileIdempotent | client/src/reducers/profile.js:41-47 | Clearing leaves no profile and no repositories, keeps the list and the error, and is idempotent. |
| ProfileReducer.ErrorDropsProfile | client/src/reducers/profile.js:54-60 | A failure records the error and forgets the profile, keeping the list and the repositories. |
| ProfileReducer.ProfilesKeptWithoutGetProfiles | client/src/reducers/profile.js:35-40 | A run of actions without `GET_PROFILES` keeps the profile list. |
| ProfileReducer.LoadingSettles | client/src/reducers/profile.js:28-60 | Once a handled action has arrived, `loading` stays off. |
| ProfileReducer.IgnoredRun | client/src/reducers/profile.js:61-62 | A run of unknown actions changes nothing. |
| ProfileReducer.InitialLoading | client/src/reducers/profile.js:11-24 | From the initial store, `loading` is still on after a run exactly when no action this reducer handles has arrived. |
| AuthReducer.Init | client/src/reducers/auth.js:14-23 | The page-load state holds the stored token, and is loading with no answer and no user. |
| AuthReducer.Step | client/src/reducers/auth.js:25-68 | Unknown actions change nothing. Handled ones clear `loading` and settle `isAuthenticated` (false exactly for failures). A success sets both tokens to the new one. A failure clears both tokens and the user. `USER_LOADED` sets the user and keeps the tokens. State and storage that agree on the token keep agreeing. |
| AuthReducer.StepCoherent | client/src/reducers/auth.js:30-64 | Each action preserves coherence: state token equals stored token, and a settled store has an answer. A store that says "not authenticated" has no token and no user. |
| AuthReducer.RunCoherent | client/src/reducers/auth.js:25-68 | Coherence holds after any run of actions. |
| AuthReducer.InitCoherent | client/src/reducers/auth.js:14-23 | The page-load store is coherent. |
| AuthReducer.FailuresAgree | client/src/reducers/auth.js:52-64 | The five failure actions give the same result, and a second failure changes nothing. |
| AuthReducer.SuccessesAgree | client/src/reducers/auth.js:37-49 | Register and login successes give the same result. |
| AuthReducer.LoginThenLogout | client/src/reducers/auth.js:37-64 | Logging out after a login leaves no token, no user and "not authenticated", exactly as logging out without it. |
| AuthReducer.LoginThenLoad | client/src/reducers/auth.js:30-49 | Login then user-loaded, from page load, gives an authenticated store with that token and user. |

## Left out

- Database I/O is replaced by in-memory maps. This includes `findOne`, `save`, `populate`, `deleteMany`, ObjectId casting and its "not found" answer for malformed ids, and the date sort of `GET /api/posts`. Fresh document and entry ids are parameters.
- Routes that only read are not modelled: `GET /api/profile`, `GET /api/profile/user/:user_id`, `GET /api/posts` and `GET /api/posts/:id`. Neither is the GitHub endpoint of `routes/api/profile.js`, which is commented out.
- Express routing and HTTP status codes are not modelled. Each error response is a constructor of `Results.Error`.
- JWT signing and checking are left out; the caller's id is an input. bcrypt, salt generation, gravatar and the email syntax check are parameters (`Users.Crypto`).
- Concurrent requests and read-modify-write races are left out; the model is sequential.
- Client action creators (axios calls, `setTimeout`, uuid) are left out, along with store wiring, React components and server start-up.
- Request body fields are modelled as strings, except the `current` flag of experience and education entries, which is a boolean; other non-string JSON values are not represented. A missing field and an empty string are the same, which agrees with the handlers' truthiness tests.
- `trim` is modelled on code points; JavaScript strings are UTF-16, so surrogate pairs are not represented.
- The `from` and `to` dates of experience and education entries are opaque strings. The creation `date` of users, profiles, posts, comments and entries is left out.
- AuthReducer.Step: the success payload is the token alone. The source spreads the whole payload into the state, and the API only ever sends `{ token }`.
- ProfileReducer.Reduce: the payloads of the profile reducer are typed (a profile, a list of profiles, repositories, `{ msg, status }`). The source accepts anything.
- The fall-through of the validation guards in `PUT /api/profile/experience` and `PUT /api/profile/education` is not modelled as written. After the 400 the handler still reaches `unshift` and `save`; whether that save stores the entry depends on the Profile schema, which is not part of this model. The model answers `Invalid` and leaves the store unchanged.

## Findings

| source | as written | input that shows it | evidently intended | confidence | as-written member | corrected member |
|---|---|---|---|---|---|---|
| routes/api/profile.js:253-257 | the index of an absent entry id is -1, and `splice(-1, 1)` removes the last entry | a profile whose experience list is one entry with id e; `DELETE /experience/` with an id other than e | an unknown id leaves the list unchanged | high, not executed | ProfileService.RemoveExperienceAbsentIdDropsEntry | ProfileService.RemoveExperienceById |
| routes/api/profile.js:324-327 | the same idiom for education: an absent id removes the last entry | a profile whose education list is one entry with id e; `DELETE /education/` with an id other than e | an unknown id leaves the list unchanged | high, not executed | ProfileService.RemoveEducationAbsentIdDropsEntry | ProfileService.RemoveEducationById |
| routes/api/posts.js:217-221 | the comment to remove is looked up by the caller's user id, not the comment id | a post whose comments are [c1, c2], both by user U; U asks to remove c2 | c2 is removed | high, not executed | PostService.RemoveCommentWrongTarget | PostService.RemoveCommentById |
| routes/api/posts.js:113-120 | the already-liked guard sends 400 but does not return, so the like is added again | a post liked by U; U likes it again | the second like is refused and likes stay unique | high, not executed | PostService.LikeAsWrittenDuplicates | PostService.Like |
| routes/api/posts.js:90-93 | the author guard sends 401 but does not return, so `post.remove()` still runs | a post by U; user V deletes it | the post stays | high, not executed | PostService.DeletePostAsWrittenIgnoresAuthor | PostService.DeletePost |
| routes/api/posts.js:140-151 | the not-yet-liked guard sends 400 but does not return, so the indexOf/splice removal runs with index -1 and drops the last like | a post whose only like is by user V; user U, who never liked it, unlikes it | the unlike is refused and V's like stays | high, not executed | PostService.UnlikeAsWrittenDropsOthersLike | PostService.Unlike |
| routes/api/posts.js:213-221 | the author guard sends 401 but does not return, so the removal runs for a caller who does not own the comment | a post whose only comment c is by user V; user U asks to remove c | the removal is refused and c stays | high, not executed | PostService.RemoveCommentAsWrittenIgnoresAuthor | PostService.RemoveCommentById |

=== FILE: alert_reducer.dfy ===
/** The client's alert store (client/src/reducers/alert.js): a list of
    on-screen alerts, appended to by `SET_ALERT` and filtered by id on
    `REMOVE_ALERT`. */
module AlertReducer {

  /** One alert.  `id` is the uuid the action creator draws; `alertType`
      selects the styling ("success", "danger"). */
  datatype Alert = Alert(id: string, msg: string, alertType: string)

  datatype Action =
    | SetAlert(alert: Alert)
    | RemoveAlert(id: string)
    | Other // any action another reducer handles

  /** `state.filter(alert => alert.id !== id)`. */
  function Without(alerts: seq<Alert>, id: string): (r: seq<Alert>)
    ensures |r| <= |alerts|
    ensures forall a :: a in r <==> a in alerts && a.id != id
  {
    if |alerts| == 0 then []
    else
      var rest := Without(alerts[1..], id);
      assert forall a :: a in alerts <==> a == alerts[0] || a in alerts[1..];
      if alerts[0].id == id then rest else [alerts[0]] + rest
  }

  function Reduce(state: seq<Alert>, action: Action): (r: seq<Alert>)
    ensures action.SetAlert? ==> |r| == |state| + 1 && r[|state|] == action.alert && r[..|state|] == state
    ensures action.RemoveAlert? ==> forall a :: a in r <==> a in state && a.id != action.id
    ensures action.Other? ==> r == state
  {
    match action
    case SetAlert(alert) => state + [alert]
    case RemoveAlert(id) => Without(state, id)
    case Other => state
  }

  /** Filtering keeps the relative order: it distributes over concatenation. */
  lemma {:induction false} WithoutAppend(a: seq<Alert>, b: seq<Alert>, id: string)
    ensures Without(a + b, id) == Without(a, id) + Without(b, id)
  {
    if |a| == 0 {
      assert a + b == b;
    } else {
      assert (a + b)[1..] == a[1..] + b;
      WithoutAppend(a[1..], b, id);
    }
  }

  /** Removing an id no alert carries changes nothing. */
  lemma {:induction false} WithoutAbsent(alerts: seq<Alert>, id: string)
    requires forall k :: 0 <= k < |alerts| ==> alerts[k].id != id
    ensures Without(alerts, id) == alerts
  {
    if |alerts| > 0 {
      WithoutAbsent(alerts[1..], id);
    }
  }

  /** Removing the same id twice is the same as removing it once. */
  lemma RemoveIdempotent(state: seq<Alert>, id: string)
    ensures Reduce(Reduce(state, RemoveAlert(id)), RemoveAlert(id)) == Reduce(state, RemoveAlert(id))
  {
    var once := Without(state, id);
    forall k | 0 <= k < |once|
      ensures once[k].id != id
    {
      assert once[k] in once;
    }
    WithoutAbsent(once, id);
  }

  /** The action creator's life cycle: an alert shown under a fresh id and
      removed when its timeout fires leaves the list as it was. */
  lemma SetThenRemove(state: seq<Alert>, alert: Alert)
    requires forall k :: 0 <= k < |state| ==> state[k].id != alert.id
    ensures Reduce(Reduce(state, SetAlert(alert)), RemoveAlert(alert.id)) == state
  {
    WithoutAppend(state, [alert], alert.id);
    WithoutAbsent(state, alert.id);
    assert Without([alert], alert.id) == [];
  }

  /** Alerts with other ids are untouched by a removal, whatever else is on the
      list: removal by one id commutes with removal by another. */
  lemma {:induction false} RemoveCommutes(state: seq<Alert>, id1: string, id2: string)
    ensures Without(Without(state, id1), id2) == Without(Without(state, id2), id1)
  {
    if |state| > 0 {
      RemoveCommutes(state[1..], id1, id2);
    }
  }
}

=== FILE: auth_reducer.dfy ===
/** The client's authentication store (client/src/reducers/auth.js), together
    with the token kept in the browser's local storage, which the reducer reads
    when the store is created and writes on every success and failure. */
module AuthReducer {

  import opened Results
  import opened Store

  /** The signed-in account as `GET /api/auth` returns it: the user document
      without its password hash. */
  datatype UserInfo = UserInfo(id: UserId, name: string, email: string, avatar: string)

  /** `isAuthenticated` is `null` (`None`) until the first answer arrives. */
  datatype State = State(
    token: Option<string>,
    isAuthenticated: Option<bool>,
    loading: bool,
    user: Option<UserInfo>)

  /** The reducer's state next to the `token` entry of local storage. */
  datatype Machine = Machine(state: State, stored: Option<string>)

  datatype Action =
    | UserLoaded(user: UserInfo)
    | RegisterSuccess(token: string)
    | LoginSuccess(token: string)
    | RegisterFail
    | AuthError
    | LoginFail
    | Logout
    | AccountDeleted
    | Other // any action another reducer handles

  predicate Succeeded(a: Action) {
    a.RegisterSuccess? || a.LoginSuccess?
  }

  predicate Failed(a: Action) {
    a.RegisterFail? || a.AuthError? || a.LoginFail? || a.Logout? || a.AccountDeleted?
  }

  /** The store when the page loads: the token is whatever local storage
      holds, nothing is known yet about whether it is good. */
  function Init(stored: Option<string>): (m: Machine)
    ensures m.state.token == m.stored == stored
    ensures m.state.loading && m.state.isAuthenticated == None && m.state.user == None
  {
    Machine(State(stored, None, true, None), stored)
  }

  /** One dispatched action: the new state and the new storage entry. */
  function Step(m: Machine, a: Action): (r: Machine)
    ensures a.Other? ==> r == m
    ensures !a.Other? ==> !r.state.loading && r.state.isAuthenticated == Some(!Failed(a))
    ensures Succeeded(a) ==> r.state.token == r.stored == Some(a.token) && r.state.user == m.state.user
    ensures Failed(a) ==> r.state.token == r.stored == None && r.state.user == None
    ensures a.UserLoaded? ==> r.state.user == Some(a.user) && r.state.token == m.state.token && r.stored == m.stored
    ensures m.state.token == m.stored ==> r.state.token == r.stored
  {
    match a
    case UserLoaded(u) =>
      m.(state := m.state.(isAuthenticated := Some(true), loading := false, user := Some(u)))
    case RegisterSuccess(t) =>
      Machine(m.state.(isAuthenticated := Some(true), loading := false, token := Some(t)), Some(t))
    case LoginSuccess(t) =>
      Machine(m.state.(isAuthenticated := Some(true), loading := false, token := Some(t)), Some(t))
    case Other => m
    case _ =>
      Machine(m.state.(token := None, isAuthenticated := Some(false), loading := false, user := None), None)
  }

  function Run(m: Machine, acts: seq<Action>): (r: Machine)
    decreases |acts|
  {
    if |acts| == 0 then m else Run(Step(m, acts[0]), acts[1..])
  }

  /** What the store and local storage agree on, and what a settled store
      knows: the token in the state is the stored one; once loading is over
      the authentication answer is in; a store that says "not authenticated"
      holds no token and no user. */
  predicate Coherent(m: Machine) {
    && m.state.token == m.stored
    && (!m.state.loading ==> m.state.isAuthenticated.Some?)
    && (m.state.isAuthenticated == Some(false) ==> m.state.token == None && m.state.user == None)
  }

  lemma InitCoherent(stored: Option<string>)
    ensures Coherent(Init(stored))
  {
  }

  lemma StepCoherent(m: Machine, a: Action)
    requires Coherent(m)
    ensures Coherent(Step(m, a))
  {
  }

  /** Every run keeps a coherent store coherent; with `InitCoherent`, the
      state's token never drifts from the one in local storage. */
  lemma {:induction false} RunCoherent(m: Machine, acts: seq<Action>)
    requires Coherent(m)
    ensures Coherent(Run(m, acts))
    decreases |acts|
  {
    if |acts| > 0 {
      StepCoherent(m, acts[0]);
      RunCoherent(Step(m, acts[0]), acts[1..]);
    }
  }

  /** The five failure actions are handled alike, and a second failure
      changes nothing. */
  lemma FailuresAgree(m: Machine, a: Action, b: Action)
    requires Failed(a) && Failed(b)
    ensures Step(m, a) == Step(m, b)
    ensures Step(Step(m, a), b) == Step(m, a)
  {
  }

  /** Signing in and signing up store the new token in the same way. */
  lemma SuccessesAgree(m: Machine, t: string)
    ensures Step(m, RegisterSuccess(t)) == Step(m, LoginSuccess(t))
  {
  }

  /** Logging out after a login leaves nothing of it: no token in the state or
      in storage, no user, not authenticated. */
  lemma LoginThenLogout(m: Machine, t: string)
    ensures var r := Step(Step(m, LoginSuccess(t)), Logout);
            r.state.token == None && r.stored == None && r.state.user == None
            && r.state.isAuthenticated == Some(false)
            && r == Step(m, Logout)
  {
  }

  /** The usual sign-in sequence from page load: login then the user is
      loaded, giving an authenticated store holding that token and user. */
  lemma LoginThenLoad(stored: Option<string>, t: string, u: UserInfo)
    ensures var r := Run(Init(stored), [LoginSuccess(t), UserLoaded(u)]);
            r.state == State(Some(t), Some(true), false, Some(u)) && r.stored == Some(t)
  {
    var acts := [LoginSuccess(t), UserLoaded(u)];
    var m1 := Step(Init(stored), LoginSuccess(t));
    var m2 := Step(m1, UserLoaded(u));
    assert acts[1..] == [UserLoaded(u)] && acts[1..][1..] == [];
    assert Run(m1, acts[1..]) == Run(m2, []) == m2;
  }
}

=== FILE: csv.dfy ===
/** The skills field of a profile submission arrives as one comma-separated
    string and is stored as `skills.split(',').map((skill) => skill.trim())`.
    This module models `split` on a one-character separator, its inverse
    `join`, and `String.prototype.trim`. */
module Csv {

  /** The characters `trim` strips: ECMAScript's WhiteSpace and
      LineTerminator productions (tab, vertical tab, form feed, space,
      no-break space, byte-order mark, every space separator of Unicode
      category Zs, line feed, carriage return, line and paragraph separator). */
  predicate IsWhitespace(c: char) {
    || c == '\t' || c == '\U{000B}' || c == '\U{000C}' || c == ' '
    || c == '\U{00A0}' || c == '\U{FEFF}'
    || c == '\U{1680}' || ('\U{2000}' <= c <= '\U{200A}')
    || c == '\U{202F}' || c == '\U{205F}' || c == '\U{3000}'
    || c == '\n' || c == '\r' || c == '\U{2028}' || c == '\U{2029}'
  }

  /** The number of occurrences of `c` in `s`. */
  function Count(s: string, c: char): nat {
    if |s| == 0 then 0 else (if s[0] == c then 1 else 0) + Count(s[1..], c)
  }

  /** `s.split(',')`: the maximal comma-free pieces of `s`, in order, with an
      empty piece before a leading, after a trailing and between two adjacent
      commas.  Splitting the empty string gives one empty piece. */
  function Split(s: string): (r: seq<string>)
    ensures |r| == Count(s, ',') + 1
    ensures forall k :: 0 <= k < |r| ==> ',' !in r[k]
  {
    if |s| == 0 then [""]
    else
      var rest := Split(s[1..]);
      if s[0] == ',' then [""] + rest
      else [[s[0]] + rest[0]] + rest[1..]
  }

  /** `parts.join(',')`. */
  function Join(parts: seq<string>): (r: string)
    requires |parts| > 0
    ensures Count(r, ',') >= |parts| - 1
  {
    if |parts| == 1 then parts[0]
    else
      CountAppend(parts[0] + [','], Join(parts[1..]), ',');
      CountAppend(parts[0], [','], ',');
      parts[0] + [','] + Join(parts[1..])
  }

  lemma {:induction false} CountAppend(a: string, b: string, c: char)
    ensures Count(a + b, c) == Count(a, c) + Count(b, c)
  {
    if |a| == 0 {
      assert a + b == b;
    } else {
      assert (a + b)[1..] == a[1..] + b;
      CountAppend(a[1..], b, c);
    }
  }

  /** Joining the pieces back with commas gives the original string: nothing
      is lost or reordered by `split`. */
  lemma {:induction false} JoinSplit(s: string)
    ensures Join(Split(s)) == s
  {
    if |s| == 0 {
    } else {
      JoinSplit(s[1..]);
      var rest := Split(s[1..]);
      if s[0] == ',' {
        assert Split(s)[1..] == rest;
        assert s == [','] + s[1..];
      } else {
        var r := Split(s);
        if |rest| == 1 {
          assert r == [[s[0]] + rest[0]];
        } else {
          assert r[1..] == rest[1..];
          assert Join(rest) == rest[0] + [','] + Join(rest[1..]);
          assert s == [s[0]] + s[1..];
        }
      }
    }
  }

  /** Splitting `piece + tail` where `piece` holds no comma glues `piece` onto
      the first piece of `tail`. */
  lemma {:induction false} SplitPrefix(piece: string, tail: string)
    requires ',' !in piece
    ensures Split(piece + tail) == [piece + Split(tail)[0]] + Split(tail)[1..]
  {
    if |piece| == 0 {
      assert piece + tail == tail;
      assert piece + Split(tail)[0] == Split(tail)[0];
      assert Split(tail) == [Split(tail)[0]] + Split(tail)[1..];
    } else {
      assert (piece + tail)[1..] == piece[1..] + tail;
      assert piece[0] in piece;
      assert forall k :: 0 <= k < |piece[1..]| ==> piece[1..][k] == piece[k + 1];
      SplitPrefix(piece[1..], tail);
      assert [piece[0]] + (piece[1..] + Split(tail)[0]) == piece + Split(tail)[0];
    }
  }

  /** `split` undoes `join` whenever no part contains the separator. */
  lemma {:induction false} SplitJoin(parts: seq<string>)
    requires |parts| > 0
    requires forall k :: 0 <= k < |parts| ==> ',' !in parts[k]
    ensures Split(Join(parts)) == parts
  {
    if |parts| == 1 {
      SplitPrefix(parts[0], "");
      assert parts[0] + "" == parts[0];
    } else {
      SplitJoin(parts[1..]);
      var tail := [','] + Join(parts[1..]);
      assert parts[0] + [','] + Join(parts[1..]) == parts[0] + tail;
      SplitPrefix(parts[0], tail);
      assert tail[1..] == Join(parts[1..]);
      assert Split(tail) == [""] + parts[1..];
      assert parts[0] + "" == parts[0];
    }
  }

  /** The number of whitespace characters at the front of `s`. */
  function Leading(s: string): (n: nat)
    ensures n <= |s|
    ensures forall k :: 0 <= k < n ==> IsWhitespace(s[k])
    ensures n < |s| ==> !IsWhitespace(s[n])
  {
    if |s| == 0 || !IsWhitespace(s[0]) then 0 else 1 + Leading(s[1..])
  }

  /** The number of whitespace characters at the back of `s`. */
  function Trailing(s: string): (n: nat)
    ensures n <= |s|
    ensures forall k :: |s| - n <= k < |s| ==> IsWhitespace(s[k])
    ensures n < |s| ==> !IsWhitespace(s[|s| - 1 - n])
  {
    if |s| == 0 || !IsWhitespace(s[|s| - 1]) then 0 else 1 + Trailing(s[..|s| - 1])
  }

  /** `s.trim()`: `s` without its leading and trailing whitespace.  It is
      empty exactly when `s` is all whitespace; otherwise it is the slice of
      `s` between the first and the last non-whitespace character. */
  function Trim(s: string): (r: string)
    ensures r == [] <==> Leading(s) == |s|
    ensures r != [] ==> Leading(s) + |r| + Trailing(s) == |s| && r == s[Leading(s)..Leading(s) + |r|]
    ensures r == [] || (!IsWhitespace(r[0]) && !IsWhitespace(r[|r| - 1]))
  {
    var lead := Leading(s);
    if lead == |s| then []
    else
      var trail := Trailing(s);
      assert trail < |s| - lead;
      s[lead..|s| - trail]
  }

  /** Trimming is idempotent. */
  lemma TrimTwice(s: string)
    ensures Trim(Trim(s)) == Trim(s)
  {
    var t := Trim(s);
    if t != [] {
      assert Leading(t) == 0;
      assert Trailing(t) == 0;
      assert t[0..|t|] == t;
    }
  }

  /** A string with no whitespace at either end is left as it is. */
  lemma TrimUntouched(s: string)
    requires s == [] || (!IsWhitespace(s[0]) && !IsWhitespace(s[|s| - 1]))
    ensures Trim(s) == s
  {
    if s != [] {
      assert Leading(s) == 0;
      assert Trailing(s) == 0;
      assert s[0..|s|] == s;
    }
  }

  /** One space on each side of such a string is stripped. */
  lemma TrimPadded(s: string)
    requires |s| > 0 && !IsWhitespace(s[0]) && !IsWhitespace(s[|s| - 1])
    ensures Trim([' '] + s + [' ']) == s
  {
    var p := [' '] + s + [' '];
    assert p[1..] == s + [' '];
    assert Leading(s + [' ']) == 0;
    assert Leading(p) == 1;
    assert p[..|p| - 1] == [' '] + s;
    assert Trailing([' '] + s) == 0;
    assert Trailing(p) == 1;
    assert p[1..|p| - 1] == s;
  }

  /** Removing whitespace from the ends never touches a comma, so a trimmed
      piece of `split` is still comma-free. */
  lemma TrimKeepsCommaFree(s: string)
    requires ',' !in s
    ensures ',' !in Trim(s)
  {
    var t := Trim(s);
    if t != [] {
      var i := Leading(s);
      forall k | 0 <= k < |t|
        ensures t[k] != ','
      {
        assert t[k] == s[i + k];
        assert s[i + k] in s;
      }
    }
  }

  /** The stored skill list: every piece of `split(',')`, trimmed, in order.
      Pieces that are empty after trimming are kept. */
  function ParseSkills(csv: string): (r: seq<string>)
    ensures |r| == Count(csv, ',') + 1
    ensures forall k :: 0 <= k < |r| ==> r[k] == Trim(Split(csv)[k])
    ensures forall k :: 0 <= k < |r| ==> ',' !in r[k]
  {
    var pieces := Split(csv);
    forall k | 0 <= k < |pieces| ensures ',' !in Trim(pieces[k]) {
      TrimKeepsCommaFree(pieces[k]);
    }
    seq(|pieces|, k requires 0 <= k < |pieces| => Trim(pieces[k]))
  }

  /** A comma-separated list whose items carry no surrounding whitespace is
      parsed back into exactly those items. */
  lemma {:induction false} ParseSkillsJoin(items: seq<string>)
    requires |items| > 0
    requires forall k :: 0 <= k < |items| ==> ',' !in items[k] && Trim(items[k]) == items[k]
    ensures ParseSkills(Join(items)) == items
  {
    SplitJoin(items);
  }

  lemma SplitExample()
    ensures Split("a, b ,c") == ["a", " b ", "c"]
  {
    var t1 := [','] + "c";
    SplitPrefix("c", "");
    assert "c" + "" == "c";
    assert t1[1..] == "c";
    assert Split(t1) == ["", "c"];
    var p2 := " b " + t1;
    SplitPrefix(" b ", t1);
    assert " b " + "" == " b ";
    var t2 := [','] + p2;
    assert t2[1..] == p2;
    assert Split(t2) == ["", " b ", "c"];
    assert "a, b ,c" == "a" + t2;
    SplitPrefix("a", t2);
    assert "a" + "" == "a";
  }

  lemma TrimExampleA()
    ensures Trim("a") == "a"
  {
    TrimUntouched("a");
  }

  lemma TrimExampleB()
    ensures Trim(" b ") == "b"
  {
    TrimPadded("b");
    assert [' '] + "b" + [' '] == " b ";
  }

  lemma TrimExampleC()
    ensures Trim("c") == "c"
  {
    TrimUntouched("c");
  }

  /** The documented example: "a, b ,c" parses to ["a", "b", "c"]. */
  lemma ParseSkillsExample()
    ensures var r := ParseSkills("a, b ,c"); |r| == 3 && r[0] == "a" && r[1] == "b" && r[2] == "c"
  {
    SplitExample();
    var r := ParseSkills("a, b ,c");
    assert r[0] == Trim("a") && r[1] == Trim(" b ") && r[2] == Trim("c");
    TrimExampleA();
    TrimExampleB();
    TrimExampleC();
  }
}

=== FILE: jsarray.dfy ===
/** The two JavaScript array primitives the handlers use to remove one element:
    `Array.prototype.indexOf`, which answers -1 for a missing value, and
    `Array.prototype.splice(start, 1)`, which reads a negative `start` as an
    offset from the end of the array. */
module JsArray {

  /** `s.indexOf(x)`: the first position holding `x`, or -1 when there is none. */
  function IndexOf<T(==)>(s: seq<T>, x: T): (i: int)
    ensures -1 <= i < |s|
    ensures i == -1 <==> x !in s
    ensures 0 <= i ==> s[i] == x && x !in s[..i]
    ensures |s| > 0 && s[0] == x ==> i == 0
  {
    if |s| == 0 then -1
    else if s[0] == x then 0
    else
      var j := IndexOf(s[1..], x);
      var n := if j < 0 then 0 else j;
      assert s[1..][..n] == s[1..1 + n];
      if j < 0 then -1 else j + 1
  }

  /** The position `splice(start, 1)` starts deleting at: a negative `start`
      counts back from the end and is clamped at 0; a start past the end is
      clamped at the length. */
  function ActualStart(len: nat, start: int): (k: nat)
    ensures k <= len
    ensures 0 <= start ==> k == if start < len then start else len
    ensures start < 0 ==> k == if len + start < 0 then 0 else len + start
  {
    if start < 0 then (if len + start < 0 then 0 else len + start)
    else if start < len then start
    else len
  }

  /** `s.splice(start, 1)` as the array it leaves behind: at most one element
      is removed, at the position `ActualStart` picks. */
  function Splice1<T>(s: seq<T>, start: int): (r: seq<T>)
    ensures |s| == 0 ==> r == s
    ensures |s| > 0 ==> |r| == |s| - 1 || start >= |s|
    ensures start >= |s| ==> r == s
    ensures ActualStart(|s|, start) < |s| ==>
              r == s[..ActualStart(|s|, start)] + s[ActualStart(|s|, start) + 1..]
  {
    var k := ActualStart(|s|, start);
    if k < |s| then s[..k] + s[k + 1..] else s
  }

  /** A start inside the array removes exactly the element at that position. */
  lemma SpliceAt<T>(s: seq<T>, i: int)
    requires 0 <= i < |s|
    ensures Splice1(s, i) == s[..i] + s[i + 1..]
    ensures multiset(Splice1(s, i)) + multiset{s[i]} == multiset(s)
  {
    assert s == s[..i] + [s[i]] + s[i + 1..];
  }

  /** The case the handlers meet when `indexOf` found nothing: `splice(-1, 1)`
      on a non-empty array removes its LAST element. */
  lemma SpliceMinusOne<T>(s: seq<T>)
    ensures |s| > 0 ==> Splice1(s, -1) == s[..|s| - 1]
    ensures |s| == 0 ==> Splice1(s, -1) == s
  {
  }

  /** Removing "the element keyed `key`" the way the handlers do it:
      `keys.indexOf(key)` on the projected keys, then `splice` at that index.
      `keys[i]` is the key of `s[i]`. */
  function RemoveKeyed<T, K(==)>(s: seq<T>, keys: seq<K>, key: K): (r: seq<T>)
    requires |keys| == |s|
    ensures key in keys ==> |r| == |s| - 1
    ensures key !in keys ==> r == (if |s| == 0 then s else s[..|s| - 1])
  {
    Splice1(s, IndexOf(keys, key))
  }

  /** When the key is present the first element carrying it is the one that
      goes, and the elements around it keep their order. */
  lemma RemoveKeyedPresent<T, K>(s: seq<T>, keys: seq<K>, key: K)
    requires |keys| == |s|
    requires key in keys
    ensures var i := IndexOf(keys, key);
            0 <= i < |s| && keys[i] == key && key !in keys[..i] &&
            RemoveKeyed(s, keys, key) == s[..i] + s[i + 1..]
  {
    SpliceAt(s, IndexOf(keys, key));
  }

  /** The three outcomes of the idiom side by side: the first element keyed
      `key` goes; with no such element the last one goes; an empty list stays
      empty. */
  lemma RemoveKeyedCases<T, K>(s: seq<T>, keys: seq<K>, key: K)
    requires |keys| == |s|
    ensures forall i :: 0 <= i < |s| && keys[i] == key && (forall j :: 0 <= j < i ==> keys[j] != key) ==>
              RemoveKeyed(s, keys, key) == s[..i] + s[i + 1..]
    ensures (forall i :: 0 <= i < |s| ==> keys[i] != key) && |s| > 0 ==> RemoveKeyed(s, keys, key) == s[..|s| - 1]
    ensures s == [] ==> RemoveKeyed(s, keys, key) == s
  {
    if key in keys {
      RemoveKeyedPresent(s, keys, key);
      var k := IndexOf(keys, key);
      forall i | 0 <= i < |s| && keys[i] == key && (forall j :: 0 <= j < i ==> keys[j] != key)
        ensures i == k
      {
      }
    }
  }
}

=== FILE: posts.dfy ===
/** The post routes (routes/api/posts.js): creating and deleting posts,
    liking and unliking them, and adding and removing comments.

    Every guard is modelled as ending the request with an `Err` and no change
    to the store.  In the source most of them (the text check of create and
    comment, the existence and author checks of delete, the already-liked and
    not-yet-liked checks, the comment existence and author checks) send an
    error response but do not `return`, so the handler carries on past them;
    the comments beside those checks say the change is not meant to happen.
    `LikeAsWritten`, `DeletePostAsWritten`, `UnlikeAsWritten` and
    `RemoveCommentAsWritten` model four of those fall-throughs as written. */
module PostService {

  import opened Results
  import opened Store
  import JsArray

  /** `post` filed under `id` in place of the stored one; nothing else changes. */
  function WithPost(db: Db, id: PostId, post: Post): (r: Db)
    ensures r.users == db.users && r.profiles == db.profiles
    ensures r.posts.Keys == db.posts.Keys + {id}
    ensures r.posts[id] == post
    ensures forall p :: p in db.posts && p != id ==> r.posts[p] == db.posts[p]
  {
    db.(posts := db.posts[id := post])
  }

  /** `POST /api/posts`: a post by the caller, under the unused id `newId`,
      with the caller's current name and avatar copied in.  An empty text is
      rejected; a caller whose account is gone makes the handler dereference a
      missing user. */
  function CreatePost(db: Db, caller: UserId, text: string, newId: PostId): (r: Result<Db>)
    requires newId !in db.posts
    ensures text == "" <==> r == Err(Invalid(["text"]))
    ensures text != "" && caller !in db.users <==> r == Err(ServerError)
    ensures r.Ok? <==> text != "" && caller in db.users
    ensures r.Ok? ==>
              && r.value.users == db.users && r.value.profiles == db.profiles
              && r.value.posts.Keys == db.posts.Keys + {newId}
              && (forall p :: p in db.posts ==> r.value.posts[p] == db.posts[p])
              && r.value.posts[newId].user == caller
              && r.value.posts[newId].text == text
              && r.value.posts[newId].name == db.users[caller].name
              && r.value.posts[newId].avatar == db.users[caller].avatar
              && r.value.posts[newId].likes == [] && r.value.posts[newId].comments == []
    ensures r.Ok? && Valid(db) ==> Valid(r.value)
  {
    if text == "" then Err(Invalid(Check("text", false)))
    else if caller !in db.users then Err(ServerError)
    else
      var author := db.users[caller];
      Ok(WithPost(db, newId, Post(caller, text, author.name, author.avatar, [], [])))
  }

  /** `DELETE /api/posts/:id`: only the author may delete a post. */
  function DeletePost(db: Db, caller: UserId, id: PostId): (r: Result<Db>)
    ensures id !in db.posts <==> r == Err(PostNotFound)
    ensures id in db.posts && db.posts[id].user != caller <==> r == Err(NotAuthorized)
    ensures r.Ok? <==> id in db.posts && db.posts[id].user == caller
    ensures r.Ok? ==>
              && r.value.users == db.users && r.value.profiles == db.profiles
              && r.value.posts.Keys == db.posts.Keys - {id}
              && (forall p :: p in r.value.posts ==> r.value.posts[p] == db.posts[p])
    ensures r.Ok? && Valid(db) ==> Valid(r.value)
  {
    if id !in db.posts then Err(PostNotFound)
    else if db.posts[id].user != caller then Err(NotAuthorized)
    else Ok(db.(posts := db.posts - {id}))
  }

  /** The store after `DELETE /api/posts/:id` as the handler is written: the
      401 for a caller who is not the author is sent, but `post.remove()` runs
      regardless.  (A missing post makes the next line dereference `null`, so
      nothing is removed.) */
  function DeletePostAsWritten(db: Db, caller: UserId, id: PostId): (r: Db)
    ensures r.posts.Keys == db.posts.Keys - {id}
    ensures r.users == db.users && r.profiles == db.profiles
    ensures forall p :: p in r.posts ==> r.posts[p] == db.posts[p]
  {
    if id !in db.posts then db
    else db.(posts := db.posts - {id})
  }

  /** The fall-through lets anyone delete anyone's post, which the corrected
      `DeletePost` refuses. */
  lemma DeletePostAsWrittenIgnoresAuthor(db: Db, caller: UserId, id: PostId)
    requires id in db.posts && db.posts[id].user != caller
    ensures id !in DeletePostAsWritten(db, caller, id).posts
    ensures DeletePost(db, caller, id) == Err(NotAuthorized)
  {
  }

  predicate HasLiked(likes: seq<Like>, u: UserId) {
    exists k :: 0 <= k < |likes| && likes[k].user == u
  }

  /** `PUT /api/posts/like/:id` on one post: a like by the caller goes in
      front, unless the caller has already liked the post. */
  function Like(post: Post, caller: UserId): (r: Result<Post>)
    ensures HasLiked(post.likes, caller) <==> r == Err(AlreadyLiked)
    ensures r.Ok? <==> !HasLiked(post.likes, caller)
    ensures r.Ok? ==> r.value == post.(likes := [Store.Like(caller)] + post.likes)
    ensures r.Ok? && LikesUnique(post.likes) ==> LikesUnique(r.value.likes)
  {
    if HasLiked(post.likes, caller) then Err(AlreadyLiked)
    else Ok(post.(likes := [Store.Like(caller)] + post.likes))
  }

  /** The like route as written: the 400 for a repeated like is sent, and the
      like is added anyway. */
  function LikeAsWritten(post: Post, caller: UserId): (r: Post)
    ensures |r.likes| == |post.likes| + 1 && r.likes[0].user == caller
    ensures r.likes[1..] == post.likes && r == post.(likes := r.likes)
  {
    post.(likes := [Store.Like(caller)] + post.likes)
  }

  /** Liking twice under the route as written records the same user twice,
      breaking the one-like-per-user rule; `Like` refuses the second like. */
  lemma LikeAsWrittenDuplicates(post: Post, caller: UserId)
    requires post.likes == []
    ensures !LikesUnique(LikeAsWritten(LikeAsWritten(post, caller), caller).likes)
    ensures Like(Like(post, caller).value, caller) == Err(AlreadyLiked)
  {
    var twice := LikeAsWritten(LikeAsWritten(post, caller), caller);
    assert twice.likes[0].user == twice.likes[1].user;
    var once := Like(post, caller).value;
    assert once.likes[0].user == caller;
  }

  /** `PUT /api/posts/unlike/:id` on one post: the caller's like is removed,
      unless the caller has not liked the post.  The index to remove is found
      with `indexOf` over the liking users. */
  function Unlike(post: Post, caller: UserId): (r: Result<Post>)
    ensures !HasLiked(post.likes, caller) <==> r == Err(NotYetLiked)
    ensures r.Ok? <==> HasLiked(post.likes, caller)
    ensures r.Ok? ==> r.value.likes == JsArray.RemoveKeyed(post.likes, LikeUsers(post.likes), caller)
    ensures r.Ok? ==> r.value == post.(likes := r.value.likes) && |r.value.likes| == |post.likes| - 1
  {
    if !HasLiked(post.likes, caller) then Err(NotYetLiked)
    else
      assert caller in LikeUsers(post.likes);
      Ok(post.(likes := JsArray.RemoveKeyed(post.likes, LikeUsers(post.likes), caller)))
  }

  /** The unlike route as written: the 400 for a caller who has not liked the
      post is sent, and the indexOf/splice removal runs anyway.  Where the
      guard passes it agrees with `Unlike`; where it does not, `indexOf` gives
      -1 and the post's oldest like is removed. */
  function UnlikeAsWritten(post: Post, caller: UserId): (r: Post)
    ensures r == post.(likes := r.likes)
    ensures HasLiked(post.likes, caller) ==> Unlike(post, caller) == Ok(r)
    ensures !HasLiked(post.likes, caller) && |post.likes| > 0 ==> r.likes == post.likes[..|post.likes| - 1]
    ensures post.likes == [] ==> r == post
  {
    var users := LikeUsers(post.likes);
    assert !HasLiked(post.likes, caller) ==> caller !in users by {
      if caller in users {
        var k :| 0 <= k < |users| && users[k] == caller;
        assert post.likes[k].user == caller;
      }
    }
    post.(likes := JsArray.RemoveKeyed(post.likes, users, caller))
  }

  /** A user who never liked a post takes someone else's like off it under the
      route as written; `Unlike` refuses. */
  lemma UnlikeAsWrittenDropsOthersLike(post: Post, caller: UserId, l: Like)
    requires post.likes == [l] && l.user != caller
    ensures UnlikeAsWritten(post, caller).likes == []
    ensures Unlike(post, caller) == Err(NotYetLiked)
  {
    assert !HasLiked(post.likes, caller);
  }

  /** Dropping one like from a list without repeated users keeps it without
      repeats and leaves no like by the user who gave the dropped one. */
  lemma DropLike(likes: seq<Like>, i: nat)
    requires i < |likes| && LikesUnique(likes)
    ensures LikesUnique(likes[..i] + likes[i + 1..])
    ensures !HasLiked(likes[..i] + likes[i + 1..], likes[i].user)
  {
    var rest := likes[..i] + likes[i + 1..];
    forall a, b | 0 <= a < b < |rest|
      ensures rest[a].user != rest[b].user
    {
      var a' := if a < i then a else a + 1;
      var b' := if b < i then b else b + 1;
      assert rest[a] == likes[a'] && rest[b] == likes[b'];
    }
    forall k | 0 <= k < |rest|
      ensures rest[k].user != likes[i].user
    {
      var k' := if k < i then k else k + 1;
      assert rest[k] == likes[k'];
    }
  }

  /** A successful unlike removes exactly the caller's first like and keeps the
      others in order; when likes were unique the caller has no like left. */
  lemma UnlikeEffect(post: Post, caller: UserId)
    requires Unlike(post, caller).Ok?
    ensures var i := JsArray.IndexOf(LikeUsers(post.likes), caller);
            && 0 <= i < |post.likes| && post.likes[i].user == caller
            && (forall j :: 0 <= j < i ==> post.likes[j].user != caller)
            && Unlike(post, caller).value.likes == post.likes[..i] + post.likes[i + 1..]
    ensures LikesUnique(post.likes) ==>
              LikesUnique(Unlike(post, caller).value.likes) && !HasLiked(Unlike(post, caller).value.likes, caller)
  {
    var users := LikeUsers(post.likes);
    JsArray.RemoveKeyedPresent(post.likes, users, caller);
    var i := JsArray.IndexOf(users, caller);
    forall j | 0 <= j < i
      ensures post.likes[j].user != caller
    {
      assert users[..i][j] == post.likes[j].user;
    }
    if LikesUnique(post.likes) {
      DropLike(post.likes, i);
    }
  }

  /** Like followed by unlike gives back the post as it was. */
  lemma LikeThenUnlike(post: Post, caller: UserId)
    requires Like(post, caller).Ok?
    ensures Unlike(Like(post, caller).value, caller) == Ok(post)
  {
    var liked := Like(post, caller).value;
    var users := LikeUsers(liked.likes);
    assert users[0] == caller;
    JsArray.RemoveKeyedPresent(liked.likes, users, caller);
    assert liked.likes[..0] + liked.likes[1..] == post.likes;
  }

  /** `PUT /api/posts/like/:id` on the store.  A missing post makes the handler
      dereference `null`. */
  function LikePost(db: Db, caller: UserId, id: PostId): (r: Result<Db>)
    ensures id !in db.posts ==> r == Err(ServerError)
    ensures id in db.posts ==>
              r == (match Like(db.posts[id], caller)
                    case Ok(p) => Ok(WithPost(db, id, p))
                    case Err(e) => Err(e))
    ensures r.Ok? && Valid(db) ==> Valid(r.value)
  {
    if id !in db.posts then Err(ServerError)
    else
      var p :- Like(db.posts[id], caller);
      Ok(WithPost(db, id, p))
  }

  /** `PUT /api/posts/unlike/:id` on the store. */
  function UnlikePost(db: Db, caller: UserId, id: PostId): (r: Result<Db>)
    ensures id !in db.posts ==> r == Err(ServerError)
    ensures id in db.posts ==>
              r == (match Unlike(db.posts[id], caller)
                    case Ok(p) => Ok(WithPost(db, id, p))
                    case Err(e) => Err(e))
    ensures r.Ok? && Valid(db) ==> Valid(r.value)
  {
    if id !in db.posts then Err(ServerError)
    else
      var p :- Unlike(db.posts[id], caller);
      assert LikesUnique(db.posts[id].likes) ==> LikesUnique(p.likes) by {
        UnlikeEffect(db.posts[id], caller);
      }
      Ok(WithPost(db, id, p))
  }

  /** `POST /api/posts/comment/:id`: a comment by the caller, with the caller's
      current name and avatar, goes in front of the post's comments.  An empty
      text is rejected; a missing account or post makes the handler dereference
      `null`. */
  function AddComment(db: Db, caller: UserId, id: PostId, text: string, newId: EntryId): (r: Result<Db>)
    ensures text == "" <==> r == Err(Invalid(["text"]))
    ensures text != "" && (caller !in db.users || id !in db.posts) <==> r == Err(ServerError)
    ensures r.Ok? <==> text != "" && caller in db.users && id in db.posts
    ensures r.Ok? ==>
              && caller in db.users && id in db.posts && r.value.posts.Keys == db.posts.Keys
              && r.value == WithPost(db, id, db.posts[id].(comments := r.value.posts[id].comments))
              && r.value.posts[id].comments
                 == [Comment(newId, caller, text, db.users[caller].name, db.users[caller].avatar)]
                    + db.posts[id].comments
    ensures r.Ok? && Valid(db) ==> Valid(r.value)
  {
    if text == "" then Err(Invalid(Check("text", false)))
    else if caller !in db.users || id !in db.posts then Err(ServerError)
    else
      var author := db.users[caller];
      var post := db.posts[id];
      var comment := Comment(newId, caller, text, author.name, author.avatar);
      Ok(WithPost(db, id, post.(comments := [comment] + post.comments)))
  }

  /** The comments not written by `u`, in their order. */
  function NotBy(comments: seq<Comment>, u: UserId): (r: seq<Comment>)
    ensures |r| <= |comments|
    ensures forall k :: 0 <= k < |r| ==> r[k].user != u && r[k] in comments
  {
    if |comments| == 0 then []
    else (if comments[0].user == u then [] else [comments[0]]) + NotBy(comments[1..], u)
  }

  /** The comment named `commentId` exists on the post and was written by
      `caller`: the two checks a removal must pass. */
  predicate OwnsComment(post: Post, caller: UserId, commentId: EntryId) {
    var j := JsArray.IndexOf(CommentIds(post.comments), commentId);
    0 <= j && post.comments[j].user == caller
  }

  /** `DELETE /api/posts/comment/:id/:comment_id` on one post, as written.
      The comment named by `commentId` must exist and be the caller's; the
      index removed is then looked up by AUTHOR (`indexOf` over the comment
      authors), so the caller's first listed comment is the one removed. */
  function RemoveComment(post: Post, caller: UserId, commentId: EntryId): (r: Result<Post>)
    ensures commentId !in CommentIds(post.comments) <==> r == Err(CommentNotFound)
    ensures r == Err(NotAuthorized) <==>
              commentId in CommentIds(post.comments) && !OwnsComment(post, caller, commentId)
    ensures r.Ok? <==> OwnsComment(post, caller, commentId)
    ensures r.Ok? ==>
              && r.value == post.(comments := r.value.comments)
              && r.value.comments == JsArray.RemoveKeyed(post.comments, CommentUsers(post.comments), caller)
              && |r.value.comments| == |post.comments| - 1
  {
    var ids := CommentIds(post.comments);
    var j := JsArray.IndexOf(ids, commentId);
    if j < 0 then Err(CommentNotFound)
    else if post.comments[j].user != caller then Err(NotAuthorized)
    else
      assert caller in CommentUsers(post.comments) by {
        assert CommentUsers(post.comments)[j] == caller;
      }
      Ok(post.(comments := JsArray.RemoveKeyed(post.comments, CommentUsers(post.comments), caller)))
  }

  /** The comment removal as written: a missing comment makes the author check
      dereference `undefined`, so nothing is saved; but the 401 for another
      user's comment is sent and the removal runs anyway, by author: the
      caller's first comment goes, or the post's last comment when the caller
      has none.  Where the caller owns the comment it agrees with
      `RemoveComment`. */
  function RemoveCommentAsWritten(post: Post, caller: UserId, commentId: EntryId): (r: Result<Post>)
    ensures commentId !in CommentIds(post.comments) <==> r == Err(CommentNotFound)
    ensures OwnsComment(post, caller, commentId) ==> r == RemoveComment(post, caller, commentId)
    ensures r.Ok? ==> r.value == post.(comments := r.value.comments) && |r.value.comments| == |post.comments| - 1
    ensures r.Ok? ==> r.value.comments == JsArray.RemoveKeyed(post.comments, CommentUsers(post.comments), caller)
    ensures r.Ok? ==>
              var cs := post.comments;
              var i := JsArray.IndexOf(CommentUsers(cs), caller);
              && (0 <= i ==> cs[i].user == caller && r.value.comments == cs[..i] + cs[i + 1..])
              && (i < 0 ==> (forall k :: 0 <= k < |cs| ==> cs[k].user != caller) && r.value.comments == cs[..|cs| - 1])
  {
    if commentId !in CommentIds(post.comments) then Err(CommentNotFound)
    else
      var users := CommentUsers(post.comments);
      var i := JsArray.IndexOf(users, caller);
      assert i < 0 ==> forall k :: 0 <= k < |post.comments| ==> post.comments[k].user != caller by {
        if i < 0 {
          forall k | 0 <= k < |post.comments|
            ensures post.comments[k].user != caller
          {
            assert users[k] == post.comments[k].user;
          }
        }
      }
      assert 0 <= i ==> JsArray.RemoveKeyed(post.comments, users, caller) == post.comments[..i] + post.comments[i + 1..] by {
        if 0 <= i {
          JsArray.SpliceAt(post.comments, i);
        }
      }
      Ok(post.(comments := JsArray.RemoveKeyed(post.comments, users, caller)))
  }

  /** Asking, as written, to remove another user's comment costs the caller
      their own: with comments [c by someone else, d by the caller], d goes
      and c stays. */
  lemma RemoveCommentAsWrittenTakesOwn(post: Post, caller: UserId, c: Comment, d: Comment)
    requires post.comments == [c, d] && c.user != caller && d.user == caller
    ensures RemoveCommentAsWritten(post, caller, c.id) == Ok(post.(comments := [c]))
  {
    assert CommentIds(post.comments)[0] == c.id;
    var users := CommentUsers(post.comments);
    assert users[0] != caller && users[1] == caller;
    assert post.comments[..1] + post.comments[2..] == [c];
  }

  /** A user removes another user's only comment under the route as written,
      where `RemoveComment` answers `NotAuthorized`. */
  lemma RemoveCommentAsWrittenIgnoresAuthor(post: Post, caller: UserId, c: Comment)
    requires post.comments == [c] && c.user != caller
    ensures RemoveCommentAsWritten(post, caller, c.id) == Ok(post.(comments := []))
    ensures RemoveComment(post, caller, c.id) == Err(NotAuthorized)
  {
    assert CommentIds(post.comments) == [c.id];
    assert CommentUsers(post.comments) == [c.user];
  }

  /** Dropping one of `u`'s comments leaves the comments of everyone else as
      they were, in order. */
  lemma {:induction false} NotByDrop(cs: seq<Comment>, i: nat, u: UserId)
    requires i < |cs| && cs[i].user == u
    ensures NotBy(cs[..i] + cs[i + 1..], u) == NotBy(cs, u)
  {
    var rest := cs[..i] + cs[i + 1..];
    if i == 0 {
      assert rest == cs[1..];
    } else {
      assert rest[0] == cs[0];
      assert rest[1..] == cs[1..][..i - 1] + cs[1..][i..];
      NotByDrop(cs[1..], i - 1, u);
    }
  }

  /** What a successful removal does: the comment removed is the caller's
      first listed one, at or before the named comment; they coincide only
      when the named comment is the caller's first. */
  lemma RemoveCommentEffect(post: Post, caller: UserId, commentId: EntryId)
    requires RemoveComment(post, caller, commentId).Ok?
    ensures var cs := post.comments;
            var j := JsArray.IndexOf(CommentIds(cs), commentId);
            var i := JsArray.IndexOf(CommentUsers(cs), caller);
            && 0 <= i <= j < |cs|
            && cs[j].id == commentId && cs[j].user == caller && cs[i].user == caller
            && (forall k :: 0 <= k < i ==> cs[k].user != caller)
            && RemoveComment(post, caller, commentId).value.comments == cs[..i] + cs[i + 1..]
            && (i == j <==> forall k :: 0 <= k < j ==> cs[k].user != caller)
  {
    var cs := post.comments;
    var users := CommentUsers(cs);
    var j := JsArray.IndexOf(CommentIds(cs), commentId);
    assert users[j] == caller;
    JsArray.RemoveKeyedPresent(cs, users, caller);
    var i := JsArray.IndexOf(users, caller);
    forall k | 0 <= k < i
      ensures cs[k].user != caller
    {
      assert users[..i][k] == cs[k].user;
    }
  }

  /** A successful removal leaves every comment by another user in place, in
      order: only the caller's own comments can be lost. */
  lemma RemoveCommentKeepsOthers(post: Post, caller: UserId, commentId: EntryId)
    requires RemoveComment(post, caller, commentId).Ok?
    ensures NotBy(RemoveComment(post, caller, commentId).value.comments, caller) == NotBy(post.comments, caller)
  {
    RemoveCommentEffect(post, caller, commentId);
    NotByDrop(post.comments, JsArray.IndexOf(CommentUsers(post.comments), caller), caller);
  }

  /** The caller's two comments, newest first: asking to remove the older one
      removes the newer one, and the comment named stays on the post. */
  lemma RemoveCommentWrongTarget(post: Post, caller: UserId, newer: Comment, older: Comment)
    requires newer.user == caller && older.user == caller && newer.id != older.id
    requires post.comments == [newer, older]
    ensures RemoveComment(post, caller, older.id) == Ok(post.(comments := [older]))
  {
    var ids := CommentIds(post.comments);
    assert ids[0] != older.id && ids[1] == older.id;
    assert CommentUsers(post.comments)[0] == caller;
    assert post.comments[..0] + post.comments[1..] == [older];
  }

  /** The removal the route evidently intends: the comment named by
      `commentId`, under the same existence and author checks. */
  function RemoveCommentById(post: Post, caller: UserId, commentId: EntryId): (r: Result<Post>)
    ensures commentId !in CommentIds(post.comments) <==> r == Err(CommentNotFound)
    ensures r == Err(NotAuthorized) <==>
              commentId in CommentIds(post.comments) && !OwnsComment(post, caller, commentId)
    ensures r.Ok? <==> OwnsComment(post, caller, commentId)
    ensures r.Ok? ==>
              var cs := post.comments;
              var j := JsArray.IndexOf(CommentIds(cs), commentId);
              && 0 <= j < |cs| && cs[j].id == commentId && cs[j].user == caller
              && r.value == post.(comments := cs[..j] + cs[j + 1..])
  {
    var ids := CommentIds(post.comments);
    var j := JsArray.IndexOf(ids, commentId);
    if j < 0 then Err(CommentNotFound)
    else if post.comments[j].user != caller then Err(NotAuthorized)
    else
      JsArray.SpliceAt(post.comments, j);
      Ok(post.(comments := JsArray.Splice1(post.comments, j)))
  }

  /** With comment ids unique on the post, the corrected removal leaves no
      comment with the named id and every other comment, by anyone, in place
      and in order. */
  lemma RemoveCommentByIdRemovesTarget(post: Post, caller: UserId, commentId: EntryId)
    requires forall a, b :: 0 <= a < b < |post.comments| ==> post.comments[a].id != post.comments[b].id
    requires RemoveCommentById(post, caller, commentId).Ok?
    ensures var cs := post.comments;
            var rest := RemoveCommentById(post, caller, commentId).value.comments;
            && |rest| == |cs| - 1
            && commentId !in CommentIds(rest)
            && NotNamed(rest, commentId) == NotNamed(cs, commentId)
  {
    var cs := post.comments;
    var j := JsArray.IndexOf(CommentIds(cs), commentId);
    var rest := RemoveCommentById(post, caller, commentId).value.comments;
    forall k | 0 <= k < |rest|
      ensures CommentIds(rest)[k] != commentId
    {
      var k' := if k < j then k else k + 1;
      assert rest[k] == cs[k'];
    }
    NotNamedDrop(cs, j, commentId);
  }

  /** The comments whose id is not `id`, in their order. */
  function NotNamed(comments: seq<Comment>, id: EntryId): (r: seq<Comment>)
    ensures |r| <= |comments|
    ensures forall k :: 0 <= k < |r| ==> r[k].id != id && r[k] in comments
  {
    if |comments| == 0 then []
    else (if comments[0].id == id then [] else [comments[0]]) + NotNamed(comments[1..], id)
  }

  lemma {:induction false} NotNamedDrop(cs: seq<Comment>, i: nat, id: EntryId)
    requires i < |cs| && cs[i].id == id
    ensures NotNamed(cs[..i] + cs[i + 1..], id) == NotNamed(cs, id)
  {
    var rest := cs[..i] + cs[i + 1..];
    if i == 0 {
      assert rest == cs[1..];
    } else {
      assert rest[0] == cs[0];
      assert rest[1..] == cs[1..][..i - 1] + cs[1..][i..];
      NotNamedDrop(cs[1..], i - 1, id);
    }
  }

  /** `DELETE /api/posts/comment/:id/:comment_id` on the store.  A missing post
      makes the handler dereference `null`. */
  function RemoveCommentFrom(db: Db, caller: UserId, id: PostId, commentId: EntryId): (r: Result<Db>)
    ensures id !in db.posts ==> r == Err(ServerError)
    ensures id in db.posts ==>
              r == (match RemoveComment(db.posts[id], caller, commentId)
                    case Ok(p) => Ok(WithPost(db, id, p))
                    case Err(e) => Err(e))
    ensures r.Ok? && Valid(db) ==> Valid(r.value)
  {
    if id !in db.posts then Err(ServerError)
    else
      var p :- RemoveComment(db.posts[id], caller, commentId);
      Ok(WithPost(db, id, p))
  }
}

=== FILE: profile.dfy ===
/** The profile routes (routes/api/profile.js): create-or-update of the
    caller's profile, reading it back, adding and removing experience and
    education entries, and deleting the whole account.

    Each request's guard that rejects it is modelled as ending the request
    with an `Err` and no change to the store.  In the source the validation
    guards of the experience and education routes send a 400 response but do
    not `return`, so the handler goes on to mutate the profile; the model
    follows the evident intent instead of that fall-through. */
module ProfileService {

  import opened Results
  import opened Store
  import Csv
  import JsArray

  /** The body of `POST /api/profile`.  A field the client left out and a field
      sent as the empty string are both the empty string: the handler tests
      each with JavaScript truthiness, under which the two agree. */
  datatype ProfileForm = ProfileForm(
    company: string,
    website: string,
    location: string,
    bio: string,
    status: string,
    githubusername: string,
    skills: string,
    youtube: string,
    facebook: string,
    twitter: string,
    instagram: string,
    linkedin: string)

  /** The body of `PUT /api/profile/experience`. */
  datatype ExperienceForm = ExperienceForm(
    title: string, company: string, location: string,
    from: string, to: string, current: bool, description: string)

  /** The body of `PUT /api/profile/education`. */
  datatype EducationForm = EducationForm(
    school: string, degree: string, fieldofstudy: string,
    from: string, to: string, current: bool, description: string)

  /** The owner's name and avatar joined onto a profile when it is read. */
  datatype Owner = Owner(name: string, avatar: string)

  datatype ProfileView = ProfileView(profile: Profile, owner: Option<Owner>)

  /** A submitted value as the profile object the handler builds receives it:
      present only when truthy. */
  function Given(s: string): (r: Option<string>)
    ensures r.Some? <==> s != ""
    ensures r.Some? ==> r.value == s
  {
    if s != "" then Some(s) else None
  }

  /** The `social` sub-document built afresh from the submitted links. */
  function SocialOf(form: ProfileForm): (r: Social)
    ensures r == NoLinks <==>
              form.youtube == "" && form.twitter == "" && form.facebook == ""
              && form.linkedin == "" && form.instagram == ""
    ensures (form.youtube != "" ==> r.youtube == Some(form.youtube)) && (form.youtube == "" ==> r.youtube == None)
    ensures (form.twitter != "" ==> r.twitter == Some(form.twitter)) && (form.twitter == "" ==> r.twitter == None)
    ensures (form.facebook != "" ==> r.facebook == Some(form.facebook)) && (form.facebook == "" ==> r.facebook == None)
    ensures (form.linkedin != "" ==> r.linkedin == Some(form.linkedin)) && (form.linkedin == "" ==> r.linkedin == None)
    ensures (form.instagram != "" ==> r.instagram == Some(form.instagram)) && (form.instagram == "" ==> r.instagram == None)
  {
    Social(Given(form.youtube), Given(form.twitter), Given(form.facebook),
           Given(form.linkedin), Given(form.instagram))
  }

  /** The failed checks of the create-or-update route, in declaration order. */
  function ProfileChecks(form: ProfileForm): (r: seq<string>)
    ensures r == [] <==> form.status != "" && form.skills != ""
    ensures "status" in r <==> form.status == ""
    ensures "skills" in r <==> form.skills == ""
  {
    assert "status" != "skills";
    Check("status", form.status != "") + Check("skills", form.skills != "")
  }

  /** A stored optional field after a `$set` of the profile object: the
      submitted value when truthy, otherwise the stored one. */
  function Keep(stored: Option<string>, submitted: string): (r: Option<string>)
    ensures submitted != "" ==> r == Some(submitted)
    ensures submitted == "" ==> r == stored
  {
    if submitted != "" then Some(submitted) else stored
  }

  /** The profile a first submission creates. */
  function Created(caller: UserId, form: ProfileForm): Profile
  {
    Profile(caller, Given(form.company), Given(form.website), Given(form.location),
            Given(form.bio), form.status, Given(form.githubusername),
            Csv.ParseSkills(form.skills), SocialOf(form), [], [])
  }

  /** `findOneAndUpdate` with `$set` of the built profile object: the truthy
      fields overwrite, the rest are left alone, and `social` (always part of
      the object) is replaced whole.  `user` is always part of the object too. */
  function Merged(stored: Profile, caller: UserId, form: ProfileForm): Profile
  {
    stored.(
      user := caller,
      company := Keep(stored.company, form.company),
      website := Keep(stored.website, form.website),
      location := Keep(stored.location, form.location),
      bio := Keep(stored.bio, form.bio),
      status := if form.status != "" then form.status else stored.status,
      githubusername := Keep(stored.githubusername, form.githubusername),
      skills := if form.skills != "" then Csv.ParseSkills(form.skills) else stored.skills,
      social := SocialOf(form))
  }

  /** `POST /api/profile`: rejects a submission without status or skills;
      otherwise updates the caller's profile in place if there is one and
      creates it if not. */
  function Upsert(db: Db, caller: UserId, form: ProfileForm): (r: Result<Db>)
    ensures r.Err? <==> form.status == "" || form.skills == ""
    ensures r.Err? ==> r.error == Invalid(ProfileChecks(form))
    ensures r.Ok? ==>
              && r.value.users == db.users
              && r.value.posts == db.posts
              && r.value.profiles.Keys == db.profiles.Keys + {caller}
              && (forall u :: u in db.profiles && u != caller ==> r.value.profiles[u] == db.profiles[u])
              && r.value.profiles[caller].user == caller
              && r.value.profiles[caller].status == form.status
              && r.value.profiles[caller].skills == Csv.ParseSkills(form.skills)
              && r.value.profiles[caller].social == SocialOf(form)
    ensures r.Ok? && ProfilesOwned(db.profiles) ==> ProfilesOwned(r.value.profiles)
  {
    var failed := ProfileChecks(form);
    if failed != [] then Err(Invalid(failed))
    else if caller in db.profiles then
      Ok(db.(profiles := db.profiles[caller := Merged(db.profiles[caller], caller, form)]))
    else
      Ok(db.(profiles := db.profiles[caller := Created(caller, form)]))
  }

  /** Updating in place: a submitted (non-empty) field overwrites the stored
      value, an empty one leaves it as it was, the social links are exactly
      the submitted ones, and the experience and education lists are not
      touched. */
  lemma UpsertUpdatesInPlace(db: Db, caller: UserId, form: ProfileForm)
    requires caller in db.profiles
    requires Upsert(db, caller, form).Ok?
    ensures var old_ := db.profiles[caller];
            var new_ := Upsert(db, caller, form).value.profiles[caller];
            && |Upsert(db, caller, form).value.profiles| == |db.profiles|
            && (form.company != "" ==> new_.company == Some(form.company))
            && (form.company == "" ==> new_.company == old_.company)
            && (form.website != "" ==> new_.website == Some(form.website))
            && (form.website == "" ==> new_.website == old_.website)
            && (form.location != "" ==> new_.location == Some(form.location))
            && (form.location == "" ==> new_.location == old_.location)
            && (form.bio != "" ==> new_.bio == Some(form.bio))
            && (form.bio == "" ==> new_.bio == old_.bio)
            && (form.githubusername != "" ==> new_.githubusername == Some(form.githubusername))
            && (form.githubusername == "" ==> new_.githubusername == old_.githubusername)
            && new_.user == caller
            && new_.experience == old_.experience
            && new_.education == old_.education
  {
    var r := Upsert(db, caller, form).value.profiles;
    assert r.Keys == db.profiles.Keys;
  }

  /** Creating: exactly one profile appears, bound to the caller, with the
      submitted fields, nothing for the fields left empty, and no experience
      or education yet. */
  lemma UpsertCreatesOne(db: Db, caller: UserId, form: ProfileForm)
    requires caller !in db.profiles
    requires Upsert(db, caller, form).Ok?
    ensures var p := Upsert(db, caller, form).value.profiles;
            && |p| == |db.profiles| + 1
            && p[caller].user == caller
            && p[caller].company == (if form.company != "" then Some(form.company) else None)
            && p[caller].website == (if form.website != "" then Some(form.website) else None)
            && p[caller].location == (if form.location != "" then Some(form.location) else None)
            && p[caller].bio == (if form.bio != "" then Some(form.bio) else None)
            && p[caller].githubusername == (if form.githubusername != "" then Some(form.githubusername) else None)
            && p[caller].experience == [] && p[caller].education == []
  {
    var p := Upsert(db, caller, form).value.profiles;
    assert p.Keys == db.profiles.Keys + {caller};
  }

  /** Submitting the same form twice gives the same store as submitting it
      once: the second submission finds the profile and changes nothing. */
  lemma UpsertIdempotent(db: Db, caller: UserId, form: ProfileForm)
    requires Upsert(db, caller, form).Ok?
    ensures Upsert(Upsert(db, caller, form).value, caller, form) == Upsert(db, caller, form)
  {
    var db1 := Upsert(db, caller, form).value;
    var p := db1.profiles[caller];
    assert Merged(p, caller, form) == p;
    assert db1.profiles[caller := p] == db1.profiles;
  }

  /** A submission without social links clears every stored link. */
  lemma UpsertClearsSocial(db: Db, caller: UserId, form: ProfileForm)
    requires form.youtube == "" && form.twitter == "" && form.facebook == ""
    requires form.linkedin == "" && form.instagram == ""
    requires Upsert(db, caller, form).Ok?
    ensures Upsert(db, caller, form).value.profiles[caller].social == NoLinks
  {
  }

  /** `GET /api/profile/me`: the caller's profile joined with the owner's name
      and avatar, or `NoProfile`. */
  function OwnProfile(db: Db, caller: UserId): (r: Result<ProfileView>)
    ensures r.Ok? <==> caller in db.profiles
    ensures r.Err? ==> r.error == NoProfile
    ensures r.Ok? ==> r.value.profile == db.profiles[caller]
    ensures r.Ok? ==> (r.value.owner.Some? <==> caller in db.users)
    ensures r.Ok? && caller in db.users ==>
              r.value.owner == Some(Owner(db.users[caller].name, db.users[caller].avatar))
  {
    if caller !in db.profiles then Err(NoProfile)
    else
      var owner := if caller in db.users then Some(Owner(db.users[caller].name, db.users[caller].avatar)) else None;
      Ok(ProfileView(db.profiles[caller], owner))
  }

  /** The caller's posts, profile and account gone; everything else kept. */
  function DeleteAccount(db: Db, caller: UserId): (r: Db)
    ensures r.users.Keys == db.users.Keys - {caller}
    ensures r.profiles.Keys == db.profiles.Keys - {caller}
    ensures forall u :: u in r.users ==> r.users[u] == db.users[u]
    ensures forall u :: u in r.profiles ==> r.profiles[u] == db.profiles[u]
    ensures forall p :: p in r.posts <==> p in db.posts && db.posts[p].user != caller
    ensures forall p :: p in r.posts ==> r.posts[p] == db.posts[p]
    ensures Valid(db) ==> Valid(r)
  {
    var posts := map p | p in db.posts && db.posts[p].user != caller :: db.posts[p];
    Db(db.users - {caller}, db.profiles - {caller}, posts)
  }

  /** After the account is deleted the caller has no profile to read. */
  lemma DeletedAccountHasNoProfile(db: Db, caller: UserId)
    ensures OwnProfile(DeleteAccount(db, caller), caller) == Err(NoProfile)
  {
  }

  function ExperienceChecks(form: ExperienceForm): (r: seq<string>)
    ensures r == [] <==> form.title != "" && form.company != "" && form.from != ""
  {
    Check("title", form.title != "") + Check("company", form.company != "") + Check("from", form.from != "")
  }

  function EducationChecks(form: EducationForm): (r: seq<string>)
    ensures r == [] <==> form.school != "" && form.degree != "" && form.fieldofstudy != "" && form.from != ""
  {
    Check("school", form.school != "") + Check("degree", form.degree != "")
      + Check("fieldofstudy", form.fieldofstudy != "") + Check("from", form.from != "")
  }

  /** `after` differs from `before` at most in the profile of `caller`, and
      there only in the experience and education lists. */
  predicate OnlyEntriesChanged(before: Db, after: Db, caller: UserId) {
    && caller in before.profiles
    && caller in after.profiles
    && after == before.(profiles := before.profiles[caller := after.profiles[caller]])
    && after.profiles[caller] == before.profiles[caller].(
         experience := after.profiles[caller].experience,
         education := after.profiles[caller].education)
  }

  /** The profile of `caller` replaced by `p`; nothing else changes. */
  function WithProfile(db: Db, caller: UserId, p: Profile): (r: Db)
    requires caller in db.profiles
    ensures r.users == db.users && r.posts == db.posts
    ensures r.profiles.Keys == db.profiles.Keys
    ensures r.profiles[caller] == p
    ensures forall u :: u in db.profiles && u != caller ==> r.profiles[u] == db.profiles[u]
  {
    db.(profiles := db.profiles[caller := p])
  }

  /** `PUT /api/profile/experience`: the new entry, under the id the store
      assigns, goes in front of the caller's experience list.  A caller without
      a profile makes the handler dereference a missing document. */
  function AddExperience(db: Db, caller: UserId, form: ExperienceForm, newId: EntryId): (r: Result<Db>)
    ensures ExperienceChecks(form) != [] ==> r == Err(Invalid(ExperienceChecks(form)))
    ensures ExperienceChecks(form) == [] && caller !in db.profiles ==> r == Err(ServerError)
    ensures r.Ok? <==> ExperienceChecks(form) == [] && caller in db.profiles
    ensures r.Ok? ==>
              && caller in db.profiles
              && OnlyEntriesChanged(db, r.value, caller)
              && r.value.profiles[caller].education == db.profiles[caller].education
              && r.value.profiles[caller].experience
                 == [Experience(newId, form.title, form.company, form.location, form.from, form.to, form.current, form.description)]
                    + db.profiles[caller].experience
    ensures r.Ok? && Valid(db) ==> Valid(r.value)
  {
    var failed := ExperienceChecks(form);
    if failed != [] then Err(Invalid(failed))
    else if caller !in db.profiles then Err(ServerError)
    else
      var p := db.profiles[caller];
      var entry := Experience(newId, form.title, form.company, form.location, form.from, form.to, form.current, form.description);
      Ok(WithProfile(db, caller, p.(experience := [entry] + p.experience)))
  }

  /** `PUT /api/profile/education`, the same for the education list. */
  function AddEducation(db: Db, caller: UserId, form: EducationForm, newId: EntryId): (r: Result<Db>)
    ensures EducationChecks(form) != [] ==> r == Err(Invalid(EducationChecks(form)))
    ensures EducationChecks(form) == [] && caller !in db.profiles ==> r == Err(ServerError)
    ensures r.Ok? <==> EducationChecks(form) == [] && caller in db.profiles
    ensures r.Ok? ==>
              && caller in db.profiles
              && OnlyEntriesChanged(db, r.value, caller)
              && r.value.profiles[caller].experience == db.profiles[caller].experience
              && r.value.profiles[caller].education
                 == [Education(newId, form.school, form.degree, form.fieldofstudy, form.from, form.to, form.current, form.description)]
                    + db.profiles[caller].education
    ensures r.Ok? && Valid(db) ==> Valid(r.value)
  {
    var failed := EducationChecks(form);
    if failed != [] then Err(Invalid(failed))
    else if caller !in db.profiles then Err(ServerError)
    else
      var p := db.profiles[caller];
      var entry := Education(newId, form.school, form.degree, form.fieldofstudy, form.from, form.to, form.current, form.description);
      Ok(WithProfile(db, caller, p.(education := [entry] + p.education)))
  }

  /** Adding E1 then E2 leaves the list newest first: [E2, E1] + the old list. */
  lemma AddExperienceTwice(db: Db, caller: UserId, f1: ExperienceForm, id1: EntryId, f2: ExperienceForm, id2: EntryId)
    requires AddExperience(db, caller, f1, id1).Ok?
    requires AddExperience(AddExperience(db, caller, f1, id1).value, caller, f2, id2).Ok?
    ensures var r := AddExperience(AddExperience(db, caller, f1, id1).value, caller, f2, id2).value;
            && |r.profiles[caller].experience| == |db.profiles[caller].experience| + 2
            && r.profiles[caller].experience[0].id == id2
            && r.profiles[caller].experience[1].id == id1
            && r.profiles[caller].experience[2..] == db.profiles[caller].experience
  {
    var db1 := AddExperience(db, caller, f1, id1).value;
    var db2 := AddExperience(db1, caller, f2, id2).value;
    var e0 := db.profiles[caller].experience;
    var e1 := db1.profiles[caller].experience;
    var e2 := db2.profiles[caller].experience;
    assert e1[1..] == e0;
    assert e2[1..] == e1;
    assert e2[2..] == e1[1..];
  }

  /** `DELETE /api/profile/experience/:exp_id`: `indexOf` on the entry ids,
      then `splice(index, 1)`.  A present id removes its first entry; an absent
      id gives index -1, and `splice(-1, 1)` removes the LAST entry. */
  function RemoveExperience(db: Db, caller: UserId, id: EntryId): (r: Result<Db>)
    ensures caller !in db.profiles <==> r == Err(ServerError)
    ensures r.Ok? <==> caller in db.profiles
    ensures r.Ok? ==>
              && OnlyEntriesChanged(db, r.value, caller)
              && r.value.profiles[caller].education == db.profiles[caller].education
    ensures r.Ok? && Valid(db) ==> Valid(r.value)
  {
    if caller !in db.profiles then Err(ServerError)
    else
      var p := db.profiles[caller];
      var entries := JsArray.RemoveKeyed(p.experience, ExperienceIds(p.experience), id);
      Ok(WithProfile(db, caller, p.(experience := entries)))
  }

  /** `DELETE /api/profile/education/:edu_id`, the same for the education list. */
  function RemoveEducation(db: Db, caller: UserId, id: EntryId): (r: Result<Db>)
    ensures caller !in db.profiles <==> r == Err(ServerError)
    ensures r.Ok? <==> caller in db.profiles
    ensures r.Ok? ==>
              && OnlyEntriesChanged(db, r.value, caller)
              && r.value.profiles[caller].experience == db.profiles[caller].experience
    ensures r.Ok? && Valid(db) ==> Valid(r.value)
  {
    if caller !in db.profiles then Err(ServerError)
    else
      var p := db.profiles[caller];
      var entries := JsArray.RemoveKeyed(p.education, EducationIds(p.education), id);
      Ok(WithProfile(db, caller, p.(education := entries)))
  }

  /** What removing an experience entry leaves: with the id at position i
      (its first occurrence), the list without position i; with the id absent,
      the list without its last entry, and an empty list stays empty. */
  lemma RemoveExperienceEffect(db: Db, caller: UserId, id: EntryId)
    requires caller in db.profiles
    ensures var old_ := db.profiles[caller].experience;
            var new_ := RemoveExperience(db, caller, id).value.profiles[caller].experience;
            && (forall i :: 0 <= i < |old_| && old_[i].id == id && (forall j :: 0 <= j < i ==> old_[j].id != id) ==>
                  new_ == old_[..i] + old_[i + 1..])
            && ((forall i :: 0 <= i < |old_| ==> old_[i].id != id) && |old_| > 0 ==> new_ == old_[..|old_| - 1])
            && (old_ == [] ==> new_ == [])
  {
    var old_ := db.profiles[caller].experience;
    JsArray.RemoveKeyedCases(old_, ExperienceIds(old_), id);
  }

  /** What removing an education entry leaves, as for experience. */
  lemma RemoveEducationEffect(db: Db, caller: UserId, id: EntryId)
    requires caller in db.profiles
    ensures var old_ := db.profiles[caller].education;
            var new_ := RemoveEducation(db, caller, id).value.profiles[caller].education;
            && (forall i :: 0 <= i < |old_| && old_[i].id == id && (forall j :: 0 <= j < i ==> old_[j].id != id) ==>
                  new_ == old_[..i] + old_[i + 1..])
            && ((forall i :: 0 <= i < |old_| ==> old_[i].id != id) && |old_| > 0 ==> new_ == old_[..|old_| - 1])
            && (old_ == [] ==> new_ == [])
  {
    var old_ := db.profiles[caller].education;
    JsArray.RemoveKeyedCases(old_, EducationIds(old_), id);
  }

  /** The behaviour the route evidently intends: remove the entry with the
      given id, and leave the list alone when there is none.  With the id
      present this is the route's own indexOf/splice removal. */
  function RemoveExperienceById(db: Db, caller: UserId, id: EntryId): (r: Result<Db>)
    ensures caller !in db.profiles <==> r == Err(ServerError)
    ensures r.Ok? <==> caller in db.profiles
    ensures r.Ok? ==>
              && OnlyEntriesChanged(db, r.value, caller)
              && r.value.profiles[caller].education == db.profiles[caller].education
    ensures r.Ok? ==>
              var old_ := db.profiles[caller].experience;
              var new_ := r.value.profiles[caller].experience;
              && (id !in ExperienceIds(old_) ==> new_ == old_)
              && (id in ExperienceIds(old_) ==> |new_| == |old_| - 1 && multiset(new_) <= multiset(old_))
    ensures r.Ok? ==>
              var old_ := db.profiles[caller].experience;
              var i := JsArray.IndexOf(ExperienceIds(old_), id);
              id in ExperienceIds(old_) ==> old_[i].id == id && r.value.profiles[caller].experience == old_[..i] + old_[i + 1..]
    ensures r.Ok? && Valid(db) ==> Valid(r.value)
  {
    if caller !in db.profiles then Err(ServerError)
    else
      var p := db.profiles[caller];
      var ids := ExperienceIds(p.experience);
      if id !in ids then Ok(db)
      else
        JsArray.SpliceAt(p.experience, JsArray.IndexOf(ids, id));
        assert p.experience[JsArray.IndexOf(ids, id)].id == id;
        RemoveExperience(db, caller, id)
  }

  /** With ids that are unique in the list, the corrected removal leaves no
      entry with that id behind. */
  lemma RemoveExperienceByIdRemovesIt(db: Db, caller: UserId, id: EntryId)
    requires caller in db.profiles
    requires var e := db.profiles[caller].experience;
             forall i, j :: 0 <= i < j < |e| ==> e[i].id != e[j].id
    ensures var new_ := RemoveExperienceById(db, caller, id).value.profiles[caller].experience;
            forall k :: 0 <= k < |new_| ==> new_[k].id != id
  {
    var e := db.profiles[caller].experience;
    var ids := ExperienceIds(e);
    if id in ids {
      var i := JsArray.IndexOf(ids, id);
      var rest := RemoveExperienceById(db, caller, id).value.profiles[caller].experience;
      forall k | 0 <= k < |rest|
        ensures rest[k].id != id
      {
        var k' := if k < i then k else k + 1;
        assert rest[k] == e[k'];
      }
    }
  }

  /** An id that names no entry still costs the list its last (oldest)
      entry under the route as written: a one-entry list loses its only entry,
      where the corrected removal keeps it. */
  lemma RemoveExperienceAbsentIdDropsEntry(db: Db, caller: UserId, e: Experience)
    requires caller in db.profiles
    requires db.profiles[caller].experience == [e]
    ensures RemoveExperience(db, caller, e.id + 1).value.profiles[caller].experience == []
    ensures RemoveExperienceById(db, caller, e.id + 1).value.profiles[caller].experience == [e]
  {
    RemoveExperienceEffect(db, caller, e.id + 1);
    assert ExperienceIds([e]) == [e.id];
  }

  /** The corrected removal for the education list, the route's own removal
      when the id is present and a no-op otherwise. */
  function RemoveEducationById(db: Db, caller: UserId, id: EntryId): (r: Result<Db>)
    ensures caller !in db.profiles <==> r == Err(ServerError)
    ensures r.Ok? <==> caller in db.profiles
    ensures r.Ok? ==>
              && OnlyEntriesChanged(db, r.value, caller)
              && r.value.profiles[caller].experience == db.profiles[caller].experience
    ensures r.Ok? ==>
              var old_ := db.profiles[caller].education;
              var new_ := r.value.profiles[caller].education;
              && (id !in EducationIds(old_) ==> new_ == old_)
              && (id in EducationIds(old_) ==> |new_| == |old_| - 1 && multiset(new_) <= multiset(old_))
    ensures r.Ok? ==>
              var old_ := db.profiles[caller].education;
              var i := JsArray.IndexOf(EducationIds(old_), id);
              id in EducationIds(old_) ==> old_[i].id == id && r.value.profiles[caller].education == old_[..i] + old_[i + 1..]
    ensures r.Ok? && Valid(db) ==> Valid(r.value)
  {
    if caller !in db.profiles then Err(ServerError)
    else
      var p := db.profiles[caller];
      var ids := EducationIds(p.education);
      if id !in ids then Ok(db)
      else
        JsArray.SpliceAt(p.education, JsArray.IndexOf(ids, id));
        assert p.education[JsArray.IndexOf(ids, id)].id == id;
        RemoveEducation(db, caller, id)
  }

  /** With ids that are unique in the list, the corrected removal leaves no
      entry with that id behind. */
  lemma RemoveEducationByIdRemovesIt(db: Db, caller: UserId, id: EntryId)
    requires caller in db.profiles
    requires var e := db.profiles[caller].education;
             forall i, j :: 0 <= i < j < |e| ==> e[i].id != e[j].id
    ensures var new_ := RemoveEducationById(db, caller, id).value.profiles[caller].education;
            forall k :: 0 <= k < |new_| ==> new_[k].id != id
  {
    var e := db.profiles[caller].education;
    var ids := EducationIds(e);
    if id in ids {
      var i := JsArray.IndexOf(ids, id);
      var rest := RemoveEducationById(db, caller, id).value.profiles[caller].education;
      forall k | 0 <= k < |rest|
        ensures rest[k].id != id
      {
        var k' := if k < i then k else k + 1;
        assert rest[k] == e[k'];
      }
    }
  }

  /** An id that names no entry still costs the list its last (oldest)
      entry under the route as written: a one-entry list loses its only entry,
      where the corrected removal keeps it. */
  lemma RemoveEducationAbsentIdDropsEntry(db: Db, caller: UserId, e: Education)
    requires caller in db.profiles
    requires db.profiles[caller].education == [e]
    ensures RemoveEducation(db, caller, e.id + 1).value.profiles[caller].education == []
    ensures RemoveEducationById(db, caller, e.id + 1).value.profiles[caller].education == [e]
  {
    RemoveEducationEffect(db, caller, e.id + 1);
    assert EducationIds([e]) == [e.id];
  }
}

=== FILE: profile_reducer.dfy ===
/** The client's profile store (client/src/reducers/profile.js): the profile
    being viewed, the list of profiles, the GitHub repositories of the viewed
    profile, a loading flag and the last error. */
module ProfileReducer {

  import opened Results
  import opened Store

  /** The last request failure: `{ msg, status }` as the action creators build
      it.  The initial `{}` is `None`. */
  datatype HttpError = HttpError(msg: string, status: int)

  /** A repository as the GitHub endpoint lists it; the reducer never looks
      inside. */
  datatype Repo = Repo(name: string, url: string)

  datatype State = State(
    profile: Option<Profile>,
    profiles: seq<Profile>,
    repos: seq<Repo>,
    loading: bool,
    error: Option<HttpError>)

  /** The store before any request has answered (`initialState`). */
  const Initial := State(None, [], [], true, None)

  datatype Action =
    | GetProfile(profile: Profile)
    | UpdateProfile(profile: Profile)
    | GetProfiles(profiles: seq<Profile>)
    | GetRepos(repos: seq<Repo>)
    | ClearProfile
    | ProfileError(error: HttpError)
    | Other // any action another reducer handles

  function Reduce(s: State, a: Action): (r: State)
    ensures a.Other? ==> r == s
    ensures !a.Other? ==> !r.loading
    ensures a.GetProfile? || a.UpdateProfile? ==> r.profile == Some(a.profile)
    ensures a.GetProfiles? ==> r.profiles == a.profiles
    ensures a.GetRepos? ==> r.repos == a.repos
    ensures a.ClearProfile? ==> r.profile == None && r.repos == []
    ensures a.ProfileError? ==> r.profile == None && r.error == Some(a.error)
    ensures r.profiles != s.profiles ==> a.GetProfiles?
    ensures r.repos != s.repos ==> a.GetRepos? || a.ClearProfile?
    ensures r.error != s.error ==> a.ProfileError?
    ensures r.profile != s.profile ==> a.GetProfile? || a.UpdateProfile? || a.ClearProfile? || a.ProfileError?
  {
    match a
    case GetProfile(p) => s.(profile := Some(p), loading := false)
    case UpdateProfile(p) => s.(profile := Some(p), loading := false)
    case GetProfiles(ps) => s.(profiles := ps, loading := false)
    case ClearProfile => s.(profile := None, repos := [], loading := false)
    case GetRepos(rs) => s.(repos := rs, loading := false)
    case ProfileError(e) => s.(error := Some(e), loading := false, profile := None)
    case Other => s
  }

  /** The state after a run of actions, dispatched in order. */
  function Run(s: State, acts: seq<Action>): (r: State)
    decreases |acts|
  {
    if |acts| == 0 then s else Run(Reduce(s, acts[0]), acts[1..])
  }

  /** The two actions that show a profile agree. */
  lemma GetAndUpdateAgree(s: State, p: Profile)
    ensures Reduce(s, GetProfile(p)) == Reduce(s, UpdateProfile(p))
    ensures Reduce(s, GetProfile(p)).profile == Some(p)
  {
  }

  /** Clearing leaves no profile and no repositories, keeps the list and the
      error, and clearing again changes nothing. */
  lemma ClearProfileIdempotent(s: State)
    ensures var c := Reduce(s, ClearProfile);
            c.profile == None && c.repos == [] && c.profiles == s.profiles && c.error == s.error
            && Reduce(c, ClearProfile) == c
  {
  }

  /** A failure forgets the viewed profile and records the error, leaving the
      list and the repositories. */
  lemma ErrorDropsProfile(s: State, e: HttpError)
    ensures var r := Reduce(s, ProfileError(e));
            r.profile == None && r.error == Some(e) && r.profiles == s.profiles && r.repos == s.repos
  {
  }

  /** Only `GET_PROFILES` replaces the list: a run without one keeps it. */
  lemma {:induction false} ProfilesKeptWithoutGetProfiles(s: State, acts: seq<Action>)
    requires forall k :: 0 <= k < |acts| ==> !acts[k].GetProfiles?
    ensures Run(s, acts).profiles == s.profiles
    decreases |acts|
  {
    if |acts| > 0 {
      ProfilesKeptWithoutGetProfiles(Reduce(s, acts[0]), acts[1..]);
    }
  }

  /** Once any action this reducer handles has arrived, loading stays off for
      the rest of the run. */
  lemma {:induction false} LoadingSettles(s: State, acts: seq<Action>)
    requires !s.loading || exists k :: 0 <= k < |acts| && !acts[k].Other?
    ensures !Run(s, acts).loading
    decreases |acts|
  {
    if |acts| > 0 {
      var s' := Reduce(s, acts[0]);
      if !s'.loading {
        LoadingSettles(s', acts[1..]);
      } else {
        var k :| 0 <= k < |acts| && !acts[k].Other?;
        assert k != 0;
        assert !acts[1..][k - 1].Other?;
        LoadingSettles(s', acts[1..]);
      }
    }
  }

  /** A run made only of actions this reducer ignores leaves the state as it
      was. */
  lemma {:induction false} IgnoredRun(s: State, acts: seq<Action>)
    requires forall k :: 0 <= k < |acts| ==> acts[k].Other?
    ensures Run(s, acts) == s
    decreases |acts|
  {
    if |acts| > 0 {
      IgnoredRun(s, acts[1..]);
    }
  }

  /** From the initial store, `loading` is still on after a run exactly when
      the run holds no action this reducer handles. */
  lemma InitialLoading(acts: seq<Action>)
    ensures Run(Initial, acts).loading <==> forall k :: 0 <= k < |acts| ==> acts[k].Other?
  {
    if forall k :: 0 <= k < |acts| ==> acts[k].Other? {
      IgnoredRun(Initial, acts);
    } else {
      LoadingSettles(Initial, acts);
    }
  }
}

=== FILE: results.dfy ===
/** Failure-carrying values shared by the server-side services.

    Every request handler of the API either answers with the updated aggregate
    or with an error response; `Result` models that choice, and `Error` names
    each error response the handlers can produce. */
module Results {

  /** A value that may be absent: an unset document field, a `null` in a
      client store, a lookup that found nothing. */
  datatype Option<+T> = None | Some(value: T)

  /** The error responses of the API.  The HTTP status each one is sent with is
      given beside it; the model does not represent status codes. */
  datatype Error =
    | Invalid(fields: seq<string>) // 400, one entry per failed field check, in check order
    | NoProfile                    // 400 'There is no profile for this user'
    | PostNotFound                 // 404 'Post not found'
    | CommentNotFound              // 404 'Comment does not exist.'
    | NotAuthorized                // 401 'User not authorized.'
    | AlreadyLiked                 // 400 'Post already liked.'
    | NotYetLiked                  // 400 'Post has not yet been liked.'
    | UserExists                   // 400 'User already exists.'
    | ServerError                  // 500, a failure caught by the handler's catch block

  datatype Result<+T> = Ok(value: T) | Err(error: Error) {
    predicate IsFailure() {
      Err?
    }

    function PropagateFailure<U>(): Result<U>
      requires Err?
    {
      Err(error)
    }

    function Extract(): T
      requires Ok?
    {
      value
    }
  }

  /** The error entry one `check(field, ...)` of a route contributes: the
      field's name when its condition fails, nothing when it holds.  A route's
      error list is the concatenation over its checks, in declaration order. */
  function Check(field: string, ok: bool): (r: seq<string>)
    ensures r == [] <==> ok
    ensures field in r <==> !ok
    ensures forall f :: f in r ==> f == field
  {
    if ok then [] else [field]
  }
}

=== FILE: store.dfy ===
/** The persistent state of the API: the user, profile and post collections,
    with the documents each one holds.  The database is replaced by three
    in-memory maps.  Users and posts are keyed by their `_id`; a profile is
    keyed by the id of the user who owns it. */
module Store {

  import opened Results

  type UserId = nat
  type PostId = nat
  type EntryId = nat

  /** An account.  `password` holds the salted hash, never the plaintext. */
  datatype User = User(name: string, email: string, password: string, avatar: string)

  /** The links of a profile's `social` sub-document; an absent link is `None`. */
  datatype Social = Social(
    youtube: Option<string>,
    twitter: Option<string>,
    facebook: Option<string>,
    linkedin: Option<string>,
    instagram: Option<string>)

  const NoLinks := Social(None, None, None, None, None)

  /** One entry of a profile's `experience` list. */
  datatype Experience = Experience(
    id: EntryId,
    title: string,
    company: string,
    location: string,
    from: string,
    to: string,
    current: bool,
    description: string)

  /** One entry of a profile's `education` list. */
  datatype Education = Education(
    id: EntryId,
    school: string,
    degree: string,
    fieldofstudy: string,
    from: string,
    to: string,
    current: bool,
    description: string)

  /** A profile document.  Optional top-level fields are `None` until a
      submission supplies them. */
  datatype Profile = Profile(
    user: UserId,
    company: Option<string>,
    website: Option<string>,
    location: Option<string>,
    bio: Option<string>,
    status: string,
    githubusername: Option<string>,
    skills: seq<string>,
    social: Social,
    experience: seq<Experience>,
    education: seq<Education>)

  /** A like records only who gave it. */
  datatype Like = Like(user: UserId)

  /** A comment, with the author's name and avatar copied in when it was made. */
  datatype Comment = Comment(id: EntryId, user: UserId, text: string, name: string, avatar: string)

  /** A post, with the author's name and avatar copied in when it was made. */
  datatype Post = Post(
    user: UserId,
    text: string,
    name: string,
    avatar: string,
    likes: seq<Like>,
    comments: seq<Comment>)

  datatype Db = Db(users: map<UserId, User>, profiles: map<UserId, Profile>, posts: map<PostId, Post>)

  /** No two accounts share an email address. */
  predicate EmailsUnique(users: map<UserId, User>) {
    forall a, b :: a in users && b in users && a != b ==> users[a].email != users[b].email
  }

  /** The profile filed under a user belongs to that user, so each user has
      at most one profile. */
  predicate ProfilesOwned(profiles: map<UserId, Profile>) {
    forall u :: u in profiles ==> profiles[u].user == u
  }

  /** Each user appears at most once among a post's likes. */
  predicate LikesUnique(likes: seq<Like>) {
    forall i, j :: 0 <= i < j < |likes| ==> likes[i].user != likes[j].user
  }

  /** The invariant every request handler keeps. */
  predicate Valid(db: Db) {
    && EmailsUnique(db.users)
    && ProfilesOwned(db.profiles)
    && forall p :: p in db.posts ==> LikesUnique(db.posts[p].likes)
  }

  /** The key of every element, in list order: the array the handlers build
      with `.map(item => item.key)` before calling `indexOf`. */
  function Project<T, K>(s: seq<T>, key: T -> K): (r: seq<K>)
    ensures |r| == |s|
    ensures forall k :: 0 <= k < |s| ==> r[k] == key(s[k])
  {
    seq(|s|, k requires 0 <= k < |s| => key(s[k]))
  }

  /** The users who have liked, in list order. */
  function LikeUsers(likes: seq<Like>): seq<UserId> {
    Project(likes, (l: Like) => l.user)
  }

  /** The comment ids, in list order. */
  function CommentIds(comments: seq<Comment>): seq<EntryId> {
    Project(comments, (c: Comment) => c.id)
  }

  /** The comment authors, in list order. */
  function CommentUsers(comments: seq<Comment>): seq<UserId> {
    Project(comments, (c: Comment) => c.user)
  }

  /** The experience entry ids, in list order. */
  function ExperienceIds(entries: seq<Experience>): seq<EntryId> {
    Project(entries, (e: Experience) => e.id)
  }

  /** The education entry ids, in list order. */
  function EducationIds(entries: seq<Education>): seq<EntryId> {
    Project(entries, (e: Education) => e.id)
  }
}

=== FILE: users.dfy ===
/** Account registration (`POST /api/users`, routes/api/users.js). */
module Users {

  import opened Results
  import opened Store

  /** The library calls registration depends on, kept abstract: the email
      syntax check of the request validator, bcrypt's salted hash and the
      gravatar URL built from an address. */
  datatype Crypto = Crypto(
    isEmail: string -> bool,
    hash: (string, string) -> string,
    gravatar: string -> string)

  /** What the client receives on success: the payload of the signed token
      names the new account. */
  datatype TokenPayload = TokenPayload(user: UserId)

  datatype Registered = Registered(users: map<UserId, User>, token: TokenPayload)

  /** The fields that fail the three declared checks: a non-empty name, a
      well-formed email and a password of at least 6 characters. */
  function RegisterChecks(env: Crypto, name: string, email: string, password: string): (r: seq<string>)
    ensures "name" in r <==> name == ""
    ensures "email" in r <==> !env.isEmail(email)
    ensures "password" in r <==> |password| < 6
    ensures forall f :: f in r ==> f in ["name", "email", "password"]
  {
    assert "name" != "email" && "name" != "password" && "email" != "password" by {
      assert |"name"| == 4 && |"email"| == 5 && |"password"| == 8;
    }
    Check("name", name != "") + Check("email", env.isEmail(email)) + Check("password", |password| >= 6)
  }

  predicate EmailTaken(users: map<UserId, User>, email: string) {
    exists u :: u in users && users[u].email == email
  }

  /** Registers an account under the unused id `newId` with password salt
      `salt`.  Invalid input is rejected before the directory is consulted; an
      address already on file is rejected with `UserExists`. */
  function Register(users: map<UserId, User>, env: Crypto, newId: UserId, salt: string,
                    name: string, email: string, password: string): (r: Result<Registered>)
    requires newId !in users
    ensures r.Err? <==> (name == "" || !env.isEmail(email) || |password| < 6 || EmailTaken(users, email))
    ensures (name == "" || !env.isEmail(email) || |password| < 6) ==>
              r == Err(Invalid(RegisterChecks(env, name, email, password)))
    ensures (name != "" && env.isEmail(email) && |password| >= 6 && EmailTaken(users, email)) ==>
              r == Err(UserExists)
    ensures r.Ok? ==>
              && r.value.users.Keys == users.Keys + {newId}
              && (forall u :: u in users ==> r.value.users[u] == users[u])
              && r.value.users[newId].name == name
              && r.value.users[newId].email == email
              && r.value.users[newId].password == env.hash(password, salt)
              && r.value.users[newId].avatar == env.gravatar(email)
              && r.value.token.user == newId
    ensures r.Ok? && EmailsUnique(users) ==> EmailsUnique(r.value.users)
  {
    var failed := RegisterChecks(env, name, email, password);
    if failed != [] then Err(Invalid(failed))
    else if EmailTaken(users, email) then Err(UserExists)
    else
      var user := User(name, email, env.hash(password, salt), env.gravatar(email));
      Ok(Registered(users[newId := user], TokenPayload(newId)))
  }

  /** A second registration with the same address is refused, whatever the
      other fields are, and leaves the directory as the first one left it. */
  lemma RegisterTwiceRefused(users: map<UserId, User>, env: Crypto, newId: UserId, newId2: UserId,
                             salt: string, salt2: string, name: string, name2: string,
                             email: string, password: string, password2: string)
    requires newId !in users
    requires Register(users, env, newId, salt, name, email, password).Ok?
    requires newId2 !in Register(users, env, newId, salt, name, email, password).value.users
    ensures var users' := Register(users, env, newId, salt, name, email, password).value.users;
            Register(users', env, newId2, salt2, name2, email, password2).Err?
  {
    var users' := Register(users, env, newId, salt, name, email, password).value.users;
    assert users'[newId].email == email;
    assert EmailTaken(users', email);
  }
}
